=== FILE: README.md ===
# SOLID principles site, modelled in Dafny

This project models the behaviour of a small React and TypeScript site that teaches the five
SOLID principles. It covers two pages and the five example pairs the site shows.

- **Principle page.** The page loads a principle's bad example, good example and readme with three
  dynamic imports, one after another. If any import rejects, it falls back to static tables keyed by
  the principle's name (`PrinciplePage`, in `principle_page.dfy`).
- **Interactive playground.** It holds a code buffer and an output pane. It runs the code, loads
  templates and clears the output (`Playground`, in `playground.dfy`).
- **Single responsibility, bad example.** The profile component's regular-expression e-mail check,
  and its load and update state changes (`UserProfile`, in `user_profile.dfy`).
- **Open/closed.** A closed `switch` over notification types and an open registry of strategies
  (`NotificationSwitch` and `NotificationRegistry`, in `notifications.dfy`).
- **Liskov substitution.** A `Square` that inherits `Rectangle`'s setters and breaks them, and a
  composed version where rectangles and squares are independent shapes (`ShapesInherited` and
  `ShapesComposed`, in `shapes.dfy`).
- **Interface segregation.** Fat workers that throw from the methods they cannot support, and
  segregated workers with capability sets (`WorkersFat` and `WorkersSegregated`, in `workers.dfy`).
- **Dependency inversion.** An order service hard-wired to MySQL and e-mail, and one that is given
  its notifier and database (`OrdersConcrete` and `OrdersInjected`, in `orders.dfy`).

JavaScript values, arrays included, are the datatype `JsValue.Value`. Truthiness, `||`, property reads, object spread
and `String()` are defined on it. Anything the site hands to the platform is a parameter, and every
operation is a pure function of its inputs. This covers module resolution (`resolve`), script
evaluation (`execute`), `fetch` outcomes and the clock (`now`). State changes are functions from
state to state. Effects are ordered traces of calls or events.

The principle page's loader is observed as a trace of events. Each event is either an `import`
(an await, where React may render) or a state-setter call. A load's visible bundles are the bundle
held at each await plus the bundle it settles on.

## Model

| member | source | states |
|---|---|---|
| JsValue.WithField | src/principles/1-single-responsibility/bad-example/UserProfile.tsx:72 | object spread with one property overridden: that property reads the new value, every other property reads as before |
| JsValue.DecimalRoundTrip | src/principles/3-liskov-substitution/good-example/Shapes.tsx:25-27 | the digits a number prints as read back to that number |
| JsValue.IntToDecimalInjective | src/principles/3-liskov-substitution/good-example/Shapes.tsx:25-27 | printing an integer never gives the empty string, and distinct integers print differently |
| JsValue.Or | src/pages/PrinciplePage.tsx:30-38 | the logical or of `a` and `b` is truthy exactly when either operand is, and is `a` itself whenever `a` is truthy |
| JsValue.ToStrEmpty | src/pages/InteractivePlayground.tsx:69 | a value prints as the empty string exactly when it is `''`, an empty array, or a one-element array whose element is `null`, `undefined` or itself prints empty |
| JsValue.OrEmptyText | src/pages/InteractivePlayground.tsx:69 | the result text of `v`, with `''` in place of a falsy `v`, is empty exactly when `v` is falsy or prints empty (as the truthy `[]` does), and is `String(v)` whenever `v` is truthy |
| PrinciplePage.StaticBadExample | src/pages/PrinciplePage.tsx:177-197 | the table's entry for the name when there is one, `// Example not found` otherwise; never empty |
| PrinciplePage.StaticGoodExample | src/pages/PrinciplePage.tsx:200-220 | the table's entry for the name when there is one, `// Example not found` otherwise; never empty |
| PrinciplePage.StaticReadme | src/pages/PrinciplePage.tsx:223-237 | the table's entry for the name when there is one, the "coming soon" paragraph otherwise; never empty |
| PrinciplePage.StaticTablesFallBack | src/pages/PrinciplePage.tsx:177-238 | only `single-responsibility` has static content; every other name gets `// Example not found` twice and the "coming soon" readme |
| PrinciplePage.PathsDistinct | src/pages/PrinciplePage.tsx:29-37 | the bad, good and readme import paths of one principle are pairwise distinct |
| PrinciplePage.SettleFallback | src/pages/PrinciplePage.tsx:39-45 | the catch block alone leaves the static bundle for the name, whatever was held before |
| PrinciplePage.LoadStartsAndEnds | src/pages/PrinciplePage.tsx:26-46 | a load first imports the bad example, and ends either by setting the readme from its import (all resolve) or with the whole catch block (any rejection) |
| PrinciplePage.LoadImportsInOrder | src/pages/PrinciplePage.tsx:26-46 | the imports run bad, then good, then readme, and none runs after the first rejection |
| PrinciplePage.FallbackOverrides | src/pages/PrinciplePage.tsx:29-44 | whatever fields were set before a rejection, the fallback overwrites all three |
| PrinciplePage.LoadAllOrNothing | src/pages/PrinciplePage.tsx:26-46 | the settled bundle is wholly dynamic when all three imports resolve and wholly static otherwise, independent of the previous bundle |
| PrinciplePage.FalsyExportsBecomePlaceholders | src/pages/PrinciplePage.tsx:30-38 | with all imports resolved, a falsy default export becomes `// Bad example code`, `// Good example code` or `''`, and a truthy one is kept |
| PrinciplePage.FallbackIgnoresId | src/pages/PrinciplePage.tsx:42-44 | on any rejection the outcome depends on the name only: id, previous bundle and which import failed play no part |
| PrinciplePage.LoadShowsPartialBundle | src/pages/PrinciplePage.tsx:29-33 | as written, while the good import is pending the page shows the new bad example beside the previous good example and readme |
| PrinciplePage.MixedBundleWitness | src/pages/PrinciplePage.tsx:29-38 | a concrete load whose displayed bundles include one that is neither the previous bundle nor the settled one |
| PrinciplePage.AtomicImportsInOrder | src/pages/PrinciplePage.tsx:26-46 | the atomic loader imports bad, good, readme in that order and stops at the first rejection |
| PrinciplePage.AtomicLoadSameOutcome | src/pages/PrinciplePage.tsx:26-46 | setting the three fields only after all imports settle gives the same final bundle, after the same imports in the same order, as the loader as written |
| PrinciplePage.AtomicLoadShowsNoMix | src/pages/PrinciplePage.tsx:26-46 | with the fields set together, every displayed bundle is the previous one or the settled one |
| PrinciplePage.Render | src/pages/PrinciplePage.tsx:21-24 | the loader runs again exactly when the id or the name changes, and then replaces the whole bundle; otherwise nothing changes |
| PrinciplePage.FirstRenderLoads | src/pages/PrinciplePage.tsx:17-24 | the mounted page always loads on its first render and shows three empty strings while the first import is pending; a second render with the same props loads nothing |
| PrinciplePage.RoutedPrinciplesCoverage | src/router/AppRouter.tsx:7-27 | every routed name has a page title, and every routed principle except the first falls back to placeholders |
| Playground.RunCode | src/pages/InteractivePlayground.tsx:64-73 | a run that returns shows the start marker, the success marker and the result text; a run that throws an object or primitive shows only `❌ Error: ` and `String(error.message)`; a thrown `null` or `undefined` makes the catch block's `error.message` throw, so the start marker stays; the buffer and the selection are unchanged |
| Playground.ResultTextEmptyIffFalsy | src/pages/InteractivePlayground.tsx:69 | a falsy result, or one that prints empty such as `[]`, adds nothing after the success marker; any other result adds its non-empty string form |
| Playground.RunReturningArrays | src/pages/InteractivePlayground.tsx:69 | `return []` is truthy yet adds nothing, and `return [1, 2]` adds `1,2` |
| Playground.RunOutcomesDistinguishable | src/pages/InteractivePlayground.tsx:64-73 | a caught error's output lacks the start marker; a run whose catch block throws shows the start marker alone; a successful run's output goes on past the start marker and does not start with the error prefix |
| Playground.RunForgetsPreviousOutput | src/pages/InteractivePlayground.tsx:66-71 | a run's output does not depend on the output before it, including a previous error |
| Playground.RunReturningFour | src/pages/InteractivePlayground.tsx:68-69 | code that returns 4 shows the two markers followed by `4` |
| Playground.LoadTemplate | src/pages/InteractivePlayground.tsx:75-77 | the buffer becomes the selected key's template, or the `srp` template when the key has none; the output and the selection are unchanged |
| Playground.UnlistedKeysLoadSrp | src/pages/InteractivePlayground.tsx:23-77 | `lsp`, `isp` and `dip` load the `srp` template, and the loaded template never depends on the buffer |
| Playground.InitialSessionAndSelector | src/pages/InteractivePlayground.tsx:6-21 | the session starts with the welcome buffer, an empty output showing the placeholder and `srp` selected, so loading a template replaces the buffer with the `srp` snippet; only the first two selector keys have their own snippet |
| Playground.ClearOutput | src/pages/InteractivePlayground.tsx:143 | clearing empties the output and touches nothing else |
| Playground.Displayed | src/pages/InteractivePlayground.tsx:150 | the pane is never blank: it shows a non-empty output as is |
| Playground.ClearShowsPlaceholder | src/pages/InteractivePlayground.tsx:143-150 | after clearing, the pane shows the placeholder |
| Playground.EditCode | src/pages/InteractivePlayground.tsx:130 | an editor change sets the buffer to the new value, or to `''` when there is none |
| Playground.SelectPrinciple | src/pages/InteractivePlayground.tsx:92 | the selector changes the selected key only |
| UserProfile.ValidateEmail | src/principles/1-single-responsibility/bad-example/UserProfile.tsx:34-37 | an accepted address has at least five characters and an `@`; one without an `@` is refused |
| UserProfile.ValidateEmailMatchesPattern | src/principles/1-single-responsibility/bad-example/UserProfile.tsx:34-37 | the character-level check accepts exactly the strings `/^[^\s@]+@[^\s@]+\.[^\s@]+$/` matches |
| UserProfile.ValidateEmailConditions | src/principles/1-single-responsibility/bad-example/UserProfile.tsx:35 | an address is accepted exactly when it has one `@`, no whitespace, something before the `@`, and after it a `.` with a character on each side |
| UserProfile.LoadUserPending | src/principles/1-single-responsibility/bad-example/UserProfile.tsx:14-15 | while the load is pending the component is loading, and nothing else has changed |
| UserProfile.LoadUser | src/principles/1-single-responsibility/bad-example/UserProfile.tsx:14-26 | a response becomes the user and is stored; a failure sets the errors to `['Failed to load user']`; loading always ends |
| UserProfile.UpdateUser | src/principles/1-single-responsibility/bad-example/UserProfile.tsx:40-58 | `null` or `undefined` updates throw at the `email` read, changing nothing and sending nothing; otherwise an invalid e-mail sets the errors to `['Invalid email format']` and sends nothing; a valid one sends one PUT whose response becomes the stored user, or whose failure sets `['Failed to update user']` |
| UserProfile.InvalidEmailShortCircuits | src/principles/1-single-responsibility/bad-example/UserProfile.tsx:40-44 | a refused update does not depend on the server, and updates without an `email` are always refused |
| UserProfile.MountLoad | src/principles/1-single-responsibility/bad-example/UserProfile.tsx:5-26 | on mount this component has stored nothing yet; the first load shows and stores the response with no errors, or records only `Failed to load user` with no user |
| UserProfile.StorageFollowsUser | src/principles/1-single-responsibility/bad-example/UserProfile.tsx:14-58 | a successful load leaves storage holding the user shown and every update keeps it so; a load and a valid update answered alike store the same user; loading again with the same response changes nothing |
| UserProfile.UpdateButton | src/principles/1-single-responsibility/bad-example/UserProfile.tsx:72 | the button never throws, and sends a request exactly when the current user's e-mail is valid; the request renames the user to `New Name` and keeps the e-mail |
| NotificationSwitch.Send | src/principles/2-open-closed/bad-example/NotificationService.tsx:6-22 | `email`, `sms` and `push` each deliver on their own channel with recipient and message unchanged; any other type throws `Unknown notification type: ` and the type |
| NotificationSwitch.ButtonsNeverThrow | src/principles/2-open-closed/bad-example/NotificationService.tsx:45-63 | the three buttons never reach the error branch and use three distinct channels |
| NotificationRegistry.ConcreteTypesDistinct | src/principles/2-open-closed/good-example/NotificationService.tsx:10-53 | the four concrete strategies report four distinct types |
| NotificationRegistry.RegisterStrategy | src/principles/2-open-closed/good-example/NotificationService.tsx:59-61 | a strategy is stored under its own type, replacing what was there; every other entry is unchanged |
| NotificationRegistry.ReregisterReplaces | src/principles/2-open-closed/good-example/NotificationService.tsx:59-61 | registering two strategies of one type leaves the registry as if only the second had been registered |
| NotificationRegistry.Send | src/principles/2-open-closed/good-example/NotificationService.tsx:63-69 | a registered type delivers through exactly its strategy with recipient and message unchanged; an unregistered type throws `No strategy registered for type: ` and the type |
| NotificationRegistry.RegisterAllKeys | src/principles/2-open-closed/good-example/NotificationService.tsx:59-61 | after a sequence of registrations the registered types are exactly the earlier ones plus those of the sequence |
| NotificationRegistry.RegisterAllLastWins | src/principles/2-open-closed/good-example/NotificationService.tsx:59-61 | a strategy whose type is not registered again later in the sequence is the one its type maps to |
| NotificationRegistry.RegisterAllKeepsOthers | src/principles/2-open-closed/good-example/NotificationService.tsx:59-61 | a type the sequence never registers keeps the strategy it had |
| NotificationRegistry.SenderButtonsNeverThrow | src/principles/2-open-closed/good-example/NotificationService.tsx:75-94 | after the component's setup every button's type is registered, so sending never throws, and each button reaches the strategy of its own type |
| NotificationRegistry.RegistryRefinesSwitch | src/principles/2-open-closed/good-example/NotificationService.tsx:63-69 | loaded with the email, sms and push strategies, the registry accepts the same types as the switch and delivers the same way |
| ShapesInherited.New | src/principles/3-liskov-substitution/bad-example/Shapes.tsx:4-5 | a new rectangle or square starts at width 0 and height 0 |
| ShapesInherited.SetWidth | src/principles/3-liskov-substitution/bad-example/Shapes.tsx:7-34 | a rectangle's `setWidth` changes the width only; a square's sets both sides to the argument |
| ShapesInherited.SetHeight | src/principles/3-liskov-substitution/bad-example/Shapes.tsx:11-40 | a rectangle's `setHeight` changes the height only; a square's sets both sides to the argument |
| ShapesInherited.SquareBreaksRectangleFrame | src/principles/3-liskov-substitution/bad-example/Shapes.tsx:28-41 | a rectangle's setters always leave the other side alone; a square's do so only when the value already equals both sides |
| ShapesInherited.ResizeRectangle | src/principles/3-liskov-substitution/bad-example/Shapes.tsx:44-55 | a rectangle returns normally, 5 by 4 with area 20; a square throws `Expected area 20, but got 16` |
| ShapesInherited.DemoError | src/principles/3-liskov-substitution/bad-example/Shapes.tsx:63-83 | the demo's rectangle button clears the error, and its square button shows the area error |
| ShapesComposed.SquareBehavesAsRectangle | src/principles/3-liskov-substitution/good-example/Shapes.tsx:17-45 | a square of side s has the area and the perimeter of the s-by-s rectangle |
| ShapesComposed.SetDimensions | src/principles/3-liskov-substitution/good-example/Shapes.tsx:29-32 | both sides are set to the given values, so the area is their product |
| ShapesComposed.SetSide | src/principles/3-liskov-substitution/good-example/Shapes.tsx:51-53 | the side is set, with area side squared and perimeter four sides |
| ShapesComposed.DescribeInjective | src/principles/3-liskov-substitution/good-example/Shapes.tsx:25-49 | `Rectangle: WxH` and `Square: SxS` determine the shape: distinct shapes describe differently |
| ShapesComposed.CalculateTotalArea | src/principles/3-liskov-substitution/good-example/Shapes.tsx:78-80 | the fold returns the sum of the shapes' areas, and 0 for no shapes |
| WorkersFat.Invoke | src/principles/4-interface-segregation/bad-example/Worker.tsx:13-66 | a returning method returns itself; a throwing one throws a message that names the worker's kind (`Humans ...` or `Robots ...`) |
| WorkersFat.InvokeSucceedsExactly | src/principles/4-interface-segregation/bad-example/Worker.tsx:13-66 | a human returns from work, eat, sleep and takeBreak only; a robot returns from work, chargeBattery and performMaintenance only |
| WorkersFat.RunUntilThrow | src/principles/4-interface-segregation/bad-example/Worker.tsx:78-84 | the calls that ran are a prefix of the block and all returned; an error is caught exactly when a call threw, and it is that call's message alone |
| WorkersFat.TestWorker | src/principles/4-interface-segregation/bad-example/Worker.tsx:74-102 | a test replaces the previous errors with at most one message, and with none exactly when every call returns |
| WorkersFat.DemoTestsStopAtFirstThrow | src/principles/4-interface-segregation/bad-example/Worker.tsx:74-102 | the human test stops at the battery with `Humans don't have batteries!`; the robot test stops at eating with `Robots don't eat!` |
| WorkersSegregated.Capabilities | src/principles/4-interface-segregation/good-example/Worker.tsx:4-79 | every class implements `Workable`, and no class is both `Maintainable` and `Eatable` |
| WorkersSegregated.Perform | src/principles/4-interface-segregation/good-example/Worker.tsx:29-92 | a call returns exactly when the method is in the worker's capabilities, recording that worker and method; any other call fails with `worker.<method> is not a function` |
| WorkersSegregated.ForEach | src/principles/4-interface-segregation/good-example/Worker.tsx:82-92 | one call per worker, in list order |
| WorkersSegregated.AssignWork | src/principles/4-interface-segregation/good-example/Worker.tsx:90-92 | every worker of any list is asked to work, once and in order |
| WorkersSegregated.FeedWorkers | src/principles/4-interface-segregation/good-example/Worker.tsx:82-84 | only eating workers are accepted, and each eats once, in order |
| WorkersSegregated.ChargeWorkers | src/principles/4-interface-segregation/good-example/Worker.tsx:86-88 | only chargeable workers are accepted, and each charges once, in order |
| WorkersSegregated.DemonstrateIsp | src/principles/4-interface-segregation/good-example/Worker.tsx:100-121 | four messages, the last being the success line; seven calls, each within its worker's capabilities |
| WorkersSegregated.FatThrowsOutsideCapabilities | src/principles/4-interface-segregation/good-example/Worker.tsx:29-63 | a fat worker throws from exactly the methods its segregated counterpart does not have |
| OrdersConcrete.CreateOrder | src/principles/5-dependency-inversion/bad-example/OrderService.tsx:36-46 | one MySQL save of the order to `orders`, then exactly one e-mail to its customer with subject `Order Confirmation` and the order's confirmation text; a `null` or `undefined` order is saved and then throws, with no e-mail |
| OrdersConcrete.PendingOrder | src/principles/5-dependency-inversion/bad-example/OrderService.tsx:18-22 | `find` answers the requested id with status `pending` |
| OrdersConcrete.GetOrder | src/principles/5-dependency-inversion/bad-example/OrderService.tsx:48-50 | one MySQL lookup in `orders`, answering the requested id as pending |
| OrdersConcrete.HandleCreateOrder | src/principles/5-dependency-inversion/bad-example/OrderService.tsx:61-71 | always saves order `12345` with its two items and e-mails `customer@example.com`, then the status `Order created successfully!` |
| OrdersInjected.CreateOrder | src/principles/5-dependency-inversion/good-example/OrderService.tsx:61-70 | one save to `orders` on the injected database, then exactly one notification through the injected notifier to the customer; a `null` or `undefined` order is saved and then throws before any notification |
| OrdersInjected.FindIn | src/principles/5-dependency-inversion/good-example/OrderService.tsx:8-51 | MongoDB and PostgreSQL answer the requested id with status `pending`; any other `Database` answers what its own `find` returns |
| OrdersInjected.GetOrder | src/principles/5-dependency-inversion/good-example/OrderService.tsx:72-74 | one lookup in `orders` on the injected database; a foreign database's answer comes back unchanged, and the file's databases answer the id as pending |
| OrdersInjected.DatabasesInterchangeable | src/principles/5-dependency-inversion/good-example/OrderService.tsx:30-74 | any two services on the file's databases answer a lookup alike, and alike to the hard-wired service |
| OrdersInjected.MockDatabaseAnswersThrough | src/principles/5-dependency-inversion/good-example/OrderService.tsx:8-11 | a mock database injected in place of the file's sees one lookup, and whatever record it answers reaches the caller unchanged |
| OrdersInjected.InjectedMirrorsConcrete | src/principles/5-dependency-inversion/good-example/OrderService.tsx:61-70 | with any notifier and database, the injected service saves the same data to the same collection, throws on the same orders, and otherwise sends the hard-wired e-mail's body to the same recipient |
| OrdersInjected.Register | src/principles/5-dependency-inversion/good-example/OrderService.tsx:81-83 | after `register` the name gets the service, and every other name gets what it got before |
| OrdersInjected.Get | src/principles/5-dependency-inversion/good-example/OrderService.tsx:85-87 | a registered name gives its service; an unregistered one gives `undefined` rather than throwing |
| OrdersInjected.ContainerLastRegistrationWins | src/principles/5-dependency-inversion/good-example/OrderService.tsx:78-87 | the last registration under a name wins, and a name never registered reads as absent rather than throwing |
| OrdersInjected.ManagerService | src/principles/5-dependency-inversion/good-example/OrderService.tsx:98-106 | an omitted prop defaults to the e-mail notifier or MongoDB; a given prop is used as is |
| OrdersInjected.HandleCreateOrder | src/principles/5-dependency-inversion/good-example/OrderService.tsx:111-121 | the order is numbered by the clock and saved with its two items, notified through the injected notifier, and the status names the dropdown's choice |
| OrdersInjected.StatusNamesDropdownNotService | src/principles/5-dependency-inversion/good-example/OrderService.tsx:109-121 | the status text does not depend on the injected service: with the dropdown on e-mail, the app switched to SMS reports the same status as the app on e-mail, yet sends by SMS |
| OrdersInjected.AppService | src/principles/5-dependency-inversion/good-example/OrderService.tsx:148-163 | the app's toggle picks the e-mail or the SMS notifier, always with MongoDB |

## Partial bundles and stale loads

- **Partial bundles.** The loader sets the bad example before it awaits the good-example import,
  and React may render during that await. So the page can show the new bad example beside the previous
  principle's good example and readme (`PrinciplePage.LoadShowsPartialBundle`, with a concrete
  case in `PrinciplePage.MixedBundleWitness`). The settled bundle is still all or nothing
  (`PrinciplePage.LoadAllOrNothing`). A loader that sets the three fields only once all imports have
  settled never shows a mix (`PrinciplePage.AtomicLoadShowsNoMix`). It imports the same paths in
  the same order and settles on the same bundle (`PrinciplePage.AtomicLoadSameOutcome`).
  `PrinciplePage.Render` runs the loader as written.
- **Stale loads.** These are out of scope. A load still pending when the props change can later
  overwrite the newer principle's content, because the code has no guard against it. The model
  claims nothing about overlapping loads.

## Left out

- Dynamic `import()` and module resolution are the oracle `resolve`. Each import path resolves to a
  default export or rejects.
- Script evaluation with `Function('"use strict"; ' + code)()` is the oracle `execute`, which
  returns a value or throws one.
- `fetch`, `response.json()` and `localStorage` are left out. A request's outcome is a parameter,
  and storage is the `stored` field. `JSON.stringify` is left out: a PUT request carries the update
  value itself, not its JSON text.
- `Date.now()` is the parameter `now`. The clipboard and `setTimeout` copy feedback on the principle
  page is not modelled.
- `console.log` text is not modelled. The catch block leaves one `LogFallback` event in the trace.
- Overlapping loads, and any interleaving of two loads on the principle page, are left out. The code
  has no guard against a stale response.
- Rendering is left out: JSX, tabs, the syntax highlighter, the Monaco editor, the copy buttons and
  the profile component's loading and "No user found" branches. The layout, navigation, home page
  and app shell are left out too, because they are presentation or link tables.
- The good `UserProfile` component and `SingleResponsibility.test.tsx` are not part of this model.
  They depend on hooks and services whose sources are not available.
- `Circle` is left out, along with all `Math.PI` and `toFixed` arithmetic, because they are floating
  point.
- JsValue.ToStr: numbers are integers only. NaN, infinities, `-0`, fractions and the exponent form
  of very large numbers are not modelled. The shapes work on integer sides for the same reason.
  Functions, symbols, bigints and objects with their own `toString` are not values of the model.
  Every plain object prints as `[object Object]`. The lemmas about printing hold over these values
  only.
- JsValue.Field: reading a property of an array, such as its `length` or an index, gives
  `undefined`. Spreading an array into an object gives an object with only the new property, not one
  keyed by the array's indices. Reading a property of `null` or `undefined` gives `undefined`, where
  JavaScript throws a `TypeError`. Three modelled reads can meet a nullish value, and each models the
  throw itself. The first is the playground's catch block, modelled by `Playground.EscapesHandler`.
  The second is `createOrder`'s read of `orderData.customerEmail`, modelled by the `threw` flag of
  `OrdersConcrete.CreateOrder` and `OrdersInjected.CreateOrder`. The third is `updateUser`'s read
  of `updates.email`, modelled by the `threw` flag of `UserProfile.UpdateUser`.
- PrinciplePage.StaticBadExample: a lookup in a plain object would also find inherited names such as
  `constructor`. The model sees only the table's own entries. The router never passes such a name.
- Playground.LoadTemplate: the same inherited-name lookup applies to the templates object, and it is
  not modelled.
- Playground.RunCode: only a thrown object's own `message` property is read. A `message` inherited
  through a prototype chain (an `Error` subclass's getter, say) is not modelled. So a
  `new Error()` with no argument, whose `message` is the `""` it inherits from `Error.prototype`,
  must be reported by the `execute` oracle as an object with `message` `""`. A thrown value with no
  `message` at all prints `undefined`, as in JavaScript.
- OrdersInjected.FindIn: a notifier or database other than the file's four classes is a tagged
  `OtherNotifier` or `OtherDatabase`. Only its `find` answer is modelled, as an oracle. Its `save`
  and `notify` are recorded as calls, with no effect.
- OrdersConcrete.HandleCreateOrder, OrdersInjected.HandleCreateOrder: the saved order carries its
  `id`, `customerEmail` and `items`, but not its `total` of 99.99. Numbers in the model are integers, so
  the recorded save omits that one property.
- The `App`'s toggle button is `AppService(useEmail)`. The toggle action itself is only a boolean
  negation.

## Findings

| source | as written | input that shows it | evidently intended | confidence | as-written member | corrected member |
|---|---|---|---|---|---|---|
| src/pages/PrinciplePage.tsx:29-38 | `setBadCode` runs before the good-example import is awaited, so a render during that await shows a bundle mixing new and old fields | moving from a page holding bundle A to id 2 `open-closed`, where only the bad import resolves (to `X`): the page shows (`X`, A's good, A's readme) before falling back to the static bundle | the three fields change together, once all imports have settled | medium; not executed | PrinciplePage.MixedBundleWitness | PrinciplePage.AtomicLoadShowsNoMix |

=== FILE: js_value.dfy ===
/** JavaScript values as far as the site's code observes them: truthiness
    (the `||` operator and `if (!x)`), string conversion (template literals
    and `+` with a string) and reads of an object's own properties.
    Numbers are integer-valued in this model; arrays are plain arrays whose
    string form is `join(',')`. */
module JsValue {

  datatype Value =
    | Undefined
    | Null
    | Bool(b: bool)
    | Num(n: int)
    | Str(s: string)
    | Obj(fields: map<string, Value>)
    | Arr(elems: seq<Value>)

  /** ToBoolean: `undefined`, `null`, `false`, `0` and `""` are falsy. */
  predicate Truthy(v: Value) {
    match v
    case Undefined => false
    case Null => false
    case Bool(b) => b
    case Num(n) => n != 0
    case Str(s) => s != ""
    case Obj(_) => true
    case Arr(_) => true
  }

  /** `null` or `undefined`. */
  predicate Nullish(v: Value) {
    v == Undefined || v == Null
  }

  /** `a || b`. */
  function Or(a: Value, b: Value): (r: Value)
    ensures Truthy(r) <==> Truthy(a) || Truthy(b)
    ensures Truthy(a) ==> r == a
  {
    if Truthy(a) then a else b
  }

  /** `o.key` on an object; a missing property reads as `undefined`. */
  function Field(o: Value, key: string): Value {
    match o
    case Obj(f) => if key in f then f[key] else Undefined
    case _ => Undefined
  }

  /** `{ ...o, key: v }`: the object's own properties with one overridden. */
  function WithField(o: Value, key: string, v: Value): (r: Value)
    ensures Field(r, key) == v
    ensures forall k :: k != key ==> Field(r, k) == Field(o, k)
  {
    match o
    case Obj(f) => Obj(f[key := v])
    case _ => Obj(map[key := v])
  }

  predicate IsDigit(c: char) {
    '0' <= c <= '9'
  }

  function DigitChar(d: nat): (c: char)
    requires d < 10
    ensures IsDigit(c) && c as int - '0' as int == d
  {
    "0123456789"[d]
  }

  /** Decimal digits of a natural number, as `String(n)` prints it. */
  function NatToDecimal(n: nat): (s: string)
    ensures |s| >= 1
    ensures forall i :: 0 <= i < |s| ==> IsDigit(s[i])
    ensures |s| > 1 ==> s[0] != '0'
    decreases n
  {
    if n < 10 then [DigitChar(n)] else NatToDecimal(n / 10) + [DigitChar(n % 10)]
  }

  /** The number a string of decimal digits denotes. */
  function DecimalValue(s: string): nat
    requires forall i :: 0 <= i < |s| ==> IsDigit(s[i])
  {
    if s == [] then 0
    else
      assert IsDigit(s[|s| - 1]);
      DecimalValue(s[..|s| - 1]) * 10 + (s[|s| - 1] as int - '0' as int)
  }

  /** Reading back the printed digits yields the number printed. */
  lemma {:induction false} DecimalRoundTrip(n: nat)
    ensures DecimalValue(NatToDecimal(n)) == n
    decreases n
  {
    if n >= 10 {
      var s := NatToDecimal(n / 10);
      assert NatToDecimal(n) == s + [DigitChar(n % 10)];
      assert (s + [DigitChar(n % 10)])[..|s|] == s;
      DecimalRoundTrip(n / 10);
    }
  }

  /** `String(n)` for an integer-valued number. */
  function IntToDecimal(n: int): string {
    if n < 0 then "-" + NatToDecimal(-n) else NatToDecimal(n)
  }

  /** Distinct natural numbers print differently. */
  lemma NatToDecimalInjective(a: nat, b: nat)
    ensures NatToDecimal(a) == NatToDecimal(b) ==> a == b
  {
    DecimalRoundTrip(a);
    DecimalRoundTrip(b);
  }

  /** Distinct numbers print differently, and every print is non-empty. */
  lemma IntToDecimalInjective(a: int, b: int)
    ensures IntToDecimal(a) != ""
    ensures IntToDecimal(a) == IntToDecimal(b) ==> a == b
  {
    var sa, sb := IntToDecimal(a), IntToDecimal(b);
    if sa == sb {
      if a < 0 && b < 0 {
        assert NatToDecimal(-a) == sa[1..];
        assert NatToDecimal(-b) == sb[1..];
        NatToDecimalInjective(-a, -b);
      } else if a >= 0 && b >= 0 {
        NatToDecimalInjective(a, b);
      }
    }
  }

  /** `String(v)`, the conversion template literals and `+` apply. */
  function ToStr(v: Value): string
    decreases v, 1
  {
    match v
    case Undefined => "undefined"
    case Null => "null"
    case Bool(b) => if b then "true" else "false"
    case Num(n) => IntToDecimal(n)
    case Str(s) => s
    case Obj(_) => "[object Object]"
    case Arr(elems) => Join(elems)
  }

  /** `Array.prototype.join(',')`: `null` and `undefined` elements print as
      the empty string, every other element as its string form. */
  function Join(elems: seq<Value>): string
    decreases elems, 0
  {
    if elems == [] then ""
    else if |elems| == 1 then ElementText(elems[0])
    else ElementText(elems[0]) + "," + Join(elems[1..])
  }

  function ElementText(e: Value): string
    decreases e, 2
  {
    if Nullish(e) then "" else ToStr(e)
  }

  /** The values that print as the empty string, described without printing:
      the empty string, and arrays with no element or one element that is
      nullish or itself prints empty. */
  predicate Blank(v: Value)
    decreases v
  {
    || v == Str("")
    || (v.Arr? && (|v.elems| == 0 || (|v.elems| == 1 && (Nullish(v.elems[0]) || Blank(v.elems[0])))))
  }

  /** A value prints as the empty string exactly when it is blank. */
  lemma {:induction false} ToStrEmpty(v: Value)
    ensures ToStr(v) == "" <==> Blank(v)
    decreases v
  {
    match v
    case Num(n) =>
      IntToDecimalInjective(n, 0);
    case Arr(elems) =>
      if |elems| == 1 {
        assert ToStr(v) == ElementText(elems[0]);
        ToStrEmpty(elems[0]);
      } else if |elems| > 1 {
        assert (ElementText(elems[0]) + "," + Join(elems[1..]))[|ElementText(elems[0])|] == ',';
      }
    case _ =>
  }

  /** `String(v || "")` is empty exactly when `v` is falsy or blank, and is `String(v)` otherwise. */
  lemma OrEmptyText(v: Value)
    ensures ToStr(Or(v, Str(""))) == "" <==> !Truthy(v) || Blank(v)
    ensures Truthy(v) ==> ToStr(Or(v, Str(""))) == ToStr(v)
  {
    ToStrEmpty(v);
  }
}

=== FILE: notifications.dfy ===
/** The open/closed example: the same notification sending written as a
    closed `switch` and as an open registry of strategies. Sending is
    observed as the delivery it causes on one channel. */
module Notifications {

  /** The channels a notification can go out on. */
  datatype Channel = EmailChannel | SmsChannel | PushChannel | SlackChannel

  /** One message handed to one channel. */
  datatype Delivery = Delivery(channel: Channel, recipient: string, message: string)

  /** The recipient and message both versions' buttons send. */
  const ButtonRecipient := "user@example.com"
  const ButtonMessage := "Hello!"
}

/** The closed version: a switch over the three declared types. */
module NotificationSwitch {
  import opened Wrappers
  import opened Notifications

  /** The declared `NotificationType` union. */
  const DeclaredTypes: set<string> := {"email", "sms", "push"}

  /** The channel each declared type is switched to. */
  function ChannelFor(kind: string): Option<Channel> {
    if kind == "email" then Some(EmailChannel)
    else if kind == "sms" then Some(SmsChannel)
    else if kind == "push" then Some(PushChannel)
    else None
  }

  /** `send`: a declared type is delivered on its own channel with recipient
      and message unchanged; any other type throws and delivers nothing. */
  function Send(kind: string, recipient: string, message: string): (r: Result<Delivery, string>)
    ensures r.Success? <==> kind in DeclaredTypes
    ensures r.Success? ==> r.value.recipient == recipient && r.value.message == message
    ensures r.Success? ==> r.value.channel != SlackChannel
    ensures kind == "email" ==> r == Success(Delivery(EmailChannel, recipient, message))
    ensures kind == "sms" ==> r == Success(Delivery(SmsChannel, recipient, message))
    ensures kind == "push" ==> r == Success(Delivery(PushChannel, recipient, message))
    ensures r.Failure? ==> r.error == "Unknown notification type: " + kind
  {
    match ChannelFor(kind)
    case Some(c) => Success(Delivery(c, recipient, message))
    case None => Failure("Unknown notification type: " + kind)
  }

  /** The three buttons' types. */
  const ButtonTypes: seq<string> := ["email", "sms", "push"]

  /** Every button sends a declared type, so no button reaches the error
      branch, and distinct buttons use distinct channels. */
  lemma ButtonsNeverThrow()
    ensures forall i :: 0 <= i < |ButtonTypes| ==> Send(ButtonTypes[i], ButtonRecipient, ButtonMessage).Success?
    ensures forall i, j :: 0 <= i < j < |ButtonTypes| ==>
      Send(ButtonTypes[i], ButtonRecipient, ButtonMessage).value.channel
        != Send(ButtonTypes[j], ButtonRecipient, ButtonMessage).value.channel
  {
  }
}

/** The open version: strategies registered in a map keyed by their own type. */
module NotificationRegistry {
  import opened Wrappers
  import opened Notifications
  import NotificationSwitch

  /** A strategy object: what `getType()` reports and the channel its `send` uses. */
  datatype Strategy = Strategy(typeName: string, channel: Channel) {
    function GetType(): string {
      typeName
    }
  }

  const EmailNotification := Strategy("email", EmailChannel)
  const SmsNotification := Strategy("sms", SmsChannel)
  const PushNotification := Strategy("push", PushChannel)
  const SlackNotification := Strategy("slack", SlackChannel)

  /** The four concrete strategies report four distinct types. */
  lemma ConcreteTypesDistinct()
    ensures |{EmailNotification.GetType(), SmsNotification.GetType(),
              PushNotification.GetType(), SlackNotification.GetType()}| == 4
  {
  }

  type Registry = map<string, Strategy>

  /** `registerStrategy`: the strategy is stored under its own type, replacing
      any earlier one there; every other entry is unchanged. */
  function RegisterStrategy(reg: Registry, s: Strategy): (r: Registry)
    ensures r.Keys == reg.Keys + {s.GetType()}
    ensures r[s.GetType()] == s
    ensures forall t :: t in reg && t != s.GetType() ==> r[t] == reg[t]
  {
    reg[s.GetType() := s]
  }

  /** Registering a second strategy of the same type leaves only the second. */
  lemma ReregisterReplaces(reg: Registry, first: Strategy, second: Strategy)
    requires first.GetType() == second.GetType()
    ensures RegisterStrategy(RegisterStrategy(reg, first), second) == RegisterStrategy(reg, second)
  {
  }

  /** `send`: a registered type goes to exactly its strategy with recipient
      and message unchanged; an unregistered type throws and invokes nothing. */
  function Send(reg: Registry, kind: string, recipient: string, message: string): (r: Result<Delivery, string>)
    ensures r.Success? <==> kind in reg
    ensures r.Success? ==> r.value == Delivery(reg[kind].channel, recipient, message)
    ensures r.Failure? ==> r.error == "No strategy registered for type: " + kind
  {
    if kind in reg then Success(Delivery(reg[kind].channel, recipient, message))
    else Failure("No strategy registered for type: " + kind)
  }

  /** A registry holding the given strategies, registered in order. */
  function RegisterAll(reg: Registry, strategies: seq<Strategy>): Registry
    decreases |strategies|
  {
    if strategies == [] then reg else RegisterAll(RegisterStrategy(reg, strategies[0]), strategies[1..])
  }

  /** After registering a sequence of strategies, the registered types are
      the earlier ones plus those of the sequence. */
  lemma {:induction false} RegisterAllKeys(reg: Registry, strategies: seq<Strategy>)
    ensures forall t :: t in RegisterAll(reg, strategies) <==>
      (t in reg || exists i :: 0 <= i < |strategies| && strategies[i].GetType() == t)
    decreases |strategies|
  {
    if strategies != [] {
      var rest := strategies[1..];
      RegisterAllKeys(RegisterStrategy(reg, strategies[0]), rest);
      forall t
        ensures t in RegisterAll(reg, strategies) <==>
          (t in reg || exists i :: 0 <= i < |strategies| && strategies[i].GetType() == t)
      {
        if exists i :: 0 <= i < |rest| && rest[i].GetType() == t {
          var i :| 0 <= i < |rest| && rest[i].GetType() == t;
          assert strategies[i + 1] == rest[i];
        }
        if exists i :: 0 <= i < |strategies| && strategies[i].GetType() == t {
          var i :| 0 <= i < |strategies| && strategies[i].GetType() == t;
          if i > 0 {
            assert rest[i - 1] == strategies[i];
          }
        }
      }
    }
  }

  /** A strategy whose type is not registered again later is the one its type maps to. */
  lemma {:induction false} RegisterAllLastWins(reg: Registry, strategies: seq<Strategy>)
    ensures forall i :: 0 <= i < |strategies| ==> strategies[i].GetType() in RegisterAll(reg, strategies)
    ensures forall i ::
      (0 <= i < |strategies| && forall j :: i < j < |strategies| ==> strategies[j].GetType() != strategies[i].GetType())
      ==> RegisterAll(reg, strategies)[strategies[i].GetType()] == strategies[i]
    decreases |strategies|
  {
    if strategies != [] {
      var s0, rest := strategies[0], strategies[1..];
      var reg' := RegisterStrategy(reg, s0);
      RegisterAllKeys(reg, strategies);
      RegisterAllLastWins(reg', rest);
      RegisterAllKeepsOthers(reg', rest);
      forall i | 0 <= i < |strategies|
        && (forall j :: i < j < |strategies| ==> strategies[j].GetType() != strategies[i].GetType())
        ensures RegisterAll(reg, strategies)[strategies[i].GetType()] == strategies[i]
      {
        if i == 0 {
          forall j | 0 <= j < |rest|
            ensures rest[j].GetType() != s0.GetType()
          {
            assert rest[j] == strategies[j + 1];
          }
        } else {
          assert rest[i - 1] == strategies[i];
          forall j | i - 1 < j < |rest|
            ensures rest[j].GetType() != rest[i - 1].GetType()
          {
            assert rest[j] == strategies[j + 1];
          }
        }
      }
    }
  }

  /** A type the sequence never registers keeps the strategy it had. */
  lemma {:induction false} RegisterAllKeepsOthers(reg: Registry, strategies: seq<Strategy>)
    ensures forall t :: t in reg && (forall i :: 0 <= i < |strategies| ==> strategies[i].GetType() != t) ==>
      t in RegisterAll(reg, strategies) && RegisterAll(reg, strategies)[t] == reg[t]
    decreases |strategies|
  {
    if strategies != [] {
      var rest := strategies[1..];
      RegisterAllKeepsOthers(RegisterStrategy(reg, strategies[0]), rest);
      forall t | t in reg && (forall i :: 0 <= i < |strategies| ==> strategies[i].GetType() != t)
        ensures t in RegisterAll(reg, strategies) && RegisterAll(reg, strategies)[t] == reg[t]
      {
        forall i | 0 <= i < |rest|
          ensures rest[i].GetType() != t
        {
          assert rest[i] == strategies[i + 1];
        }
      }
    }
  }

  /** The component's setup: all four concrete strategies. */
  const SenderService := RegisterAll(map[], [EmailNotification, SmsNotification, PushNotification, SlackNotification])

  /** The component's four buttons. */
  const ButtonTypes: seq<string> := ["email", "sms", "push", "slack"]

  /** After setup every button's type is registered, so `handleSend` never
      throws, and each button reaches the strategy of its own type. */
  lemma SenderButtonsNeverThrow()
    ensures forall i :: 0 <= i < |ButtonTypes| ==>
      Send(SenderService, ButtonTypes[i], ButtonRecipient, ButtonMessage).Success?
      && SenderService[ButtonTypes[i]].GetType() == ButtonTypes[i]
  {
    var ss := [EmailNotification, SmsNotification, PushNotification, SlackNotification];
    RegisterAllLastWins(map[], ss);
    assert SenderService == RegisterAll(map[], ss);
    forall i | 0 <= i < |ButtonTypes|
      ensures ButtonTypes[i] in SenderService && SenderService[ButtonTypes[i]].GetType() == ButtonTypes[i]
    {
      assert ss[i].GetType() == ButtonTypes[i];
      assert forall j :: i < j < |ss| ==> ss[j].GetType() != ss[i].GetType();
    }
  }

  /** The registry loaded with the email, sms and push strategies behaves as
      the closed switch: the same types succeed, on the same channel, with
      the same recipient and message. */
  lemma RegistryRefinesSwitch(kind: string, recipient: string, message: string)
    ensures
      var reg := RegisterAll(map[], [EmailNotification, SmsNotification, PushNotification]);
      && (Send(reg, kind, recipient, message).Success? <==> NotificationSwitch.Send(kind, recipient, message).Success?)
      && (Send(reg, kind, recipient, message).Success? ==>
            Send(reg, kind, recipient, message).value == NotificationSwitch.Send(kind, recipient, message).value)
  {
    var ss := [EmailNotification, SmsNotification, PushNotification];
    RegisterAllKeys(map[], ss);
    RegisterAllLastWins(map[], ss);
    var reg := RegisterAll(map[], ss);
    if kind in reg {
      var i :| 0 <= i < |ss| && ss[i].GetType() == kind;
    }
    if kind in NotificationSwitch.DeclaredTypes {
      assert kind == ss[0].GetType() || kind == ss[1].GetType() || kind == ss[2].GetType();
    }
  }
}

=== FILE: orders.dfy ===
/** The dependency-inversion example: an order service observed as the
    ordered trace of calls it makes on its database and its notifier.
    `orderData` is any JavaScript object; `console.log` output is not kept. */
module OrdersConcrete {
  import opened JsValue

  /** A call on one of the two concrete services the bad service builds itself. */
  datatype Call =
    | MySqlSave(table: string, data: Value)
    | MySqlFind(table: string, id: string)
    | SendEmail(to: Value, subject: string, body: string)

  const OrdersTable := "orders"
  const ConfirmationSubject := "Order Confirmation"

  /** `Your order {orderData.id} has been created`. */
  function ConfirmationText(orderData: Value): string {
    "Your order " + ToStr(Field(orderData, "id")) + " has been created"
  }

  /** What a `createOrder` call did: the calls it made in order, and whether
      it ended by throwing a `TypeError`. */
  datatype Effect<C> = Effect(calls: seq<C>, threw: bool)

  /** `createOrder`: one save to `orders`, then exactly one e-mail to the
      order's customer; always the MySQL database and the e-mail service.
      A nullish `orderData` is saved as given, and reading its
      `customerEmail` then throws, so no e-mail is sent. */
  function CreateOrder(orderData: Value): (r: Effect<Call>)
    ensures r.threw <==> Nullish(orderData)
    ensures |r.calls| == (if r.threw then 1 else 2)
    ensures r.calls[0] == MySqlSave(OrdersTable, orderData)
    ensures !r.threw ==> r.calls[1].SendEmail? && r.calls[1].to == Field(orderData, "customerEmail")
    ensures !r.threw ==> r.calls[1].subject == ConfirmationSubject && r.calls[1].body == ConfirmationText(orderData)
  {
    var save := MySqlSave(OrdersTable, orderData);
    if Nullish(orderData) then Effect([save], true)
    else Effect([save, SendEmail(Field(orderData, "customerEmail"), ConfirmationSubject, ConfirmationText(orderData))], false)
  }

  /** The stub record every database's `find` returns. */
  function PendingOrder(id: string): (r: Value)
    ensures Field(r, "id") == Str(id) && Field(r, "status") == Str("pending")
  {
    Obj(map["id" := Str(id), "status" := Str("pending")])
  }

  /** A read together with the calls it made. */
  datatype Lookup<C> = Lookup(result: Value, calls: seq<C>)

  /** `getOrder`: one lookup in `orders`, answering the requested id as pending. */
  function GetOrder(orderId: string): (r: Lookup<Call>)
    ensures r.calls == [MySqlFind(OrdersTable, orderId)]
    ensures Field(r.result, "id") == Str(orderId) && Field(r.result, "status") == Str("pending")
  {
    Lookup(PendingOrder(orderId), [MySqlFind(OrdersTable, orderId)])
  }

  /** The two items every order of the example carries. */
  const DemoItems := Arr([Str("item1"), Str("item2")])

  /** The component's order; its `total` of 99.99 is not an integer and is
      not represented. */
  const DemoOrder := Obj(map["id" := Str("12345"), "customerEmail" := Str("customer@example.com"), "items" := DemoItems])

  const CreatedStatus := "Order created successfully!"

  datatype Outcome<C> = Outcome(calls: seq<C>, status: string)

  /** `handleCreateOrder`: always order 12345, then the fixed success status. */
  function HandleCreateOrder(): (r: Outcome<Call>)
    ensures r.status == CreatedStatus
    ensures r.calls == [MySqlSave(OrdersTable, DemoOrder),
                        SendEmail(Str("customer@example.com"), ConfirmationSubject, "Your order " + "12345" + " has been created")]
  {
    assert Field(DemoOrder, "id") == Str("12345");
    assert Field(DemoOrder, "customerEmail") == Str("customer@example.com");
    assert ConfirmationText(DemoOrder) == "Your order " + "12345" + " has been created";
    Outcome(CreateOrder(DemoOrder).calls, CreatedStatus)
  }
}

/** The injected version: the service is given its notifier and database. */
module OrdersInjected {
  import opened JsValue
  import opened Wrappers
  import OrdersConcrete

  /** The notifiers the file defines, and any other implementation of the
      `NotificationService` interface, told apart by a tag. */
  datatype Notifier = EmailNotificationService | SmsNotificationService | OtherNotifier(tag: nat)

  /** The databases the file defines, and any other implementation of the
      `Database` interface (a mock, say), told apart by a tag. */
  datatype Database = MongoDatabase | PostgreSqlDatabase | OtherDatabase(tag: nat) {
    /** One of the two classes the file defines. */
    predicate Builtin() {
      !OtherDatabase?
    }
  }

  /** What another database's `find` answers, per tag, collection and id. */
  type FindOracle = (nat, string, string) -> Value

  /** A call on an injected service. */
  datatype Call =
    | Save(db: Database, collection: string, data: Value)
    | Find(db: Database, collection: string, id: string)
    | Notify(via: Notifier, recipient: Value, message: string)

  datatype OrderService = OrderService(notifier: Notifier, database: Database)

  /** `createOrder`: one save to `orders` on the injected database, then
      exactly one notification through the injected notifier. A nullish
      `orderData` is saved, and reading its `customerEmail` then throws
      before anyone is notified. */
  function CreateOrder(svc: OrderService, orderData: Value): (r: OrdersConcrete.Effect<Call>)
    ensures r.threw <==> Nullish(orderData)
    ensures |r.calls| == (if r.threw then 1 else 2)
    ensures r.calls[0] == Save(svc.database, OrdersConcrete.OrdersTable, orderData)
    ensures !r.threw ==> r.calls[1].Notify? && r.calls[1].via == svc.notifier
    ensures !r.threw ==> r.calls[1].recipient == Field(orderData, "customerEmail")
    ensures !r.threw ==> r.calls[1].message == OrdersConcrete.ConfirmationText(orderData)
  {
    var save := Save(svc.database, OrdersConcrete.OrdersTable, orderData);
    if Nullish(orderData) then OrdersConcrete.Effect([save], true)
    else OrdersConcrete.Effect([save, Notify(svc.notifier, Field(orderData, "customerEmail"), OrdersConcrete.ConfirmationText(orderData))], false)
  }

  /** `find` on the injected database: the two databases the file defines
      answer the requested id, pending; any other answers what its oracle says. */
  function FindIn(db: Database, collection: string, id: string, other: FindOracle): (r: Value)
    ensures db.Builtin() ==> Field(r, "id") == Str(id) && Field(r, "status") == Str("pending")
    ensures db.OtherDatabase? ==> r == other(db.tag, collection, id)
  {
    match db
    case MongoDatabase => OrdersConcrete.PendingOrder(id)
    case PostgreSqlDatabase => OrdersConcrete.PendingOrder(id)
    case OtherDatabase(tag) => other(tag, collection, id)
  }

  /** `getOrder`: one lookup in `orders` on the injected database, whose
      answer is returned unchanged. */
  function GetOrder(svc: OrderService, orderId: string, other: FindOracle): (r: OrdersConcrete.Lookup<Call>)
    ensures r.calls == [Find(svc.database, OrdersConcrete.OrdersTable, orderId)]
    ensures svc.database.OtherDatabase? ==> r.result == other(svc.database.tag, OrdersConcrete.OrdersTable, orderId)
    ensures svc.database.Builtin() ==>
      Field(r.result, "id") == Str(orderId) && Field(r.result, "status") == Str("pending")
  {
    OrdersConcrete.Lookup(FindIn(svc.database, OrdersConcrete.OrdersTable, orderId, other),
                          [Find(svc.database, OrdersConcrete.OrdersTable, orderId)])
  }

  /** The two databases the file defines are interchangeable: either answers
      a lookup alike, and alike to the hard-wired service. */
  lemma DatabasesInterchangeable(a: OrderService, b: OrderService, orderId: string, other: FindOracle)
    ensures a.database.Builtin() && b.database.Builtin() ==>
      GetOrder(a, orderId, other).result == GetOrder(b, orderId, other).result
    ensures a.database.Builtin() ==>
      GetOrder(a, orderId, other).result == OrdersConcrete.GetOrder(orderId).result
  {
  }

  /** A mock database injected in place of the file's: whatever record it
      answers with reaches the caller unchanged, and the service asks it for
      nothing but that one lookup. */
  lemma MockDatabaseAnswersThrough(notifier: Notifier, tag: nat, orderId: string, record: Value)
    ensures
      var r := GetOrder(OrderService(notifier, OtherDatabase(tag)), orderId, (_, _, _) => record);
      r.result == record && r.calls == [Find(OtherDatabase(tag), OrdersConcrete.OrdersTable, orderId)]
  {
  }

  /** The injected service with any notifier and database performs the
      concrete service's steps in the same order: the same save, then, for
      the same orders, one message to the same recipient with the same text
      as the e-mail body; both throw on the same orders. */
  lemma InjectedMirrorsConcrete(svc: OrderService, orderData: Value)
    ensures
      var injected, concrete := CreateOrder(svc, orderData), OrdersConcrete.CreateOrder(orderData);
      && injected.threw == concrete.threw && |injected.calls| == |concrete.calls|
      && injected.calls[0].collection == concrete.calls[0].table && injected.calls[0].data == concrete.calls[0].data
      && (!injected.threw ==>
            injected.calls[1].recipient == concrete.calls[1].to && injected.calls[1].message == concrete.calls[1].body)
  {
  }

  /** `ServiceContainer`: services by name. */
  type Container<S> = map<string, S>

  /** `register`: the name now maps to the service; no other name changes. */
  function Register<S>(c: Container<S>, name: string, service: S): (r: Container<S>)
    ensures Get(r, name) == Some(service)
    ensures forall other :: other != name ==> Get(r, other) == Get(c, other)
  {
    c[name := service]
  }

  /** `get`: the service registered under the name, or `undefined` (no throw). */
  function Get<S>(c: Container<S>, name: string): (r: Option<S>)
    ensures r.None? <==> name !in c
    ensures r.Some? ==> r.value == c[name]
  {
    if name in c then Some(c[name]) else None
  }

  /** Registering twice under a name keeps only the last, and a name never
      registered reads as absent. */
  lemma ContainerLastRegistrationWins<S>(c: Container<S>, name: string, first: S, second: S, other: string)
    ensures Get(Register(Register(c, name, first), name, second), name) == Some(second)
    ensures other !in c && other != name ==> Get(Register(c, name, first), other) == None
  {
  }

  /** The dropdown's two choices. */
  datatype Choice = EmailChoice | SmsChoice {
    function Name(): string {
      match this
      case EmailChoice => "email"
      case SmsChoice => "sms"
    }
  }

  /** The component's props with its defaults: e-mail notifier, MongoDB. */
  function ManagerService(notifier: Option<Notifier>, database: Option<Database>): (svc: OrderService)
    ensures notifier.None? ==> svc.notifier == EmailNotificationService
    ensures database.None? ==> svc.database == MongoDatabase
    ensures notifier.Some? ==> svc.notifier == notifier.value
    ensures database.Some? ==> svc.database == database.value
  {
    OrderService(notifier.GetOr(EmailNotificationService), database.GetOr(MongoDatabase))
  }

  /** The order the injected component creates at time `now` (milliseconds);
      its `total` of 99.99 is not an integer and is not represented. */
  function TimedOrder(now: int): Value {
    Obj(map["id" := Str(IntToDecimal(now)), "customerEmail" := Str("customer@example.com"),
            "items" := OrdersConcrete.DemoItems])
  }

  /** `handleCreateOrder`: creates a timestamped order, then reports the
      dropdown's choice, whichever notifier is actually injected. */
  function HandleCreateOrder(svc: OrderService, choice: Choice, now: int): (r: OrdersConcrete.Outcome<Call>)
    ensures r.status == "Order created with " + choice.Name() + " notification!"
    ensures |r.calls| == 2 && r.calls[1].Notify? && r.calls[1].via == svc.notifier
    ensures r.calls[0] == Save(svc.database, OrdersConcrete.OrdersTable, TimedOrder(now))
    ensures Field(r.calls[0].data, "items") == OrdersConcrete.DemoItems
    ensures r.calls[1].message == "Your order " + IntToDecimal(now) + " has been created"
  {
    OrdersConcrete.Outcome(CreateOrder(svc, TimedOrder(now)).calls, "Order created with " + choice.Name() + " notification!")
  }

  /** The status text depends only on the dropdown: with the dropdown on
      e-mail, the app switched to SMS reports the same status as the app on
      e-mail, yet sends its message by SMS. */
  lemma StatusNamesDropdownNotService(a: OrderService, b: OrderService, choice: Choice, now: int)
    ensures HandleCreateOrder(a, choice, now).status == HandleCreateOrder(b, choice, now).status
    ensures HandleCreateOrder(AppService(false), EmailChoice, now).calls[1].via == SmsNotificationService
    ensures HandleCreateOrder(AppService(true), EmailChoice, now).calls[1].via == EmailNotificationService
  {
  }

  /** The example app: the toggle picks the notifier; the database is MongoDB. */
  function AppService(useEmail: bool): (svc: OrderService)
    ensures svc.database == MongoDatabase
    ensures svc.notifier == if useEmail then EmailNotificationService else SmsNotificationService
  {
    ManagerService(Some(if useEmail then EmailNotificationService else SmsNotificationService), Some(MongoDatabase))
  }
}

=== FILE: playground.dfy ===
/** The playground session: an editor buffer, an output pane and a selected
    template key, driven by run, load-template and clear actions. Script
    evaluation is an abstract executor that either returns a value or throws. */
module Playground {
  import opened JsValue
  import opened Wrappers

  /** `code`, `output` and `selectedPrinciple`. */
  datatype Session = Session(code: string, output: string, selected: string)

  /** How evaluating the buffer completes: with a return value, or by
      throwing a value (an `Error` is an object with a `message` property). */
  datatype Completion = Returned(result: Value) | Threw(thrown: Value)

  /** The catch block reads `error.message`; on a thrown `null` or
      `undefined` that read itself throws a `TypeError`, which escapes the
      handler before the error text is set. */
  predicate EscapesHandler(c: Completion) {
    c.Threw? && Nullish(c.thrown)
  }

  /** The text after the error prefix: `String(error.message)`. */
  function ErrorText(thrown: Value): string {
    ToStr(Field(thrown, "message"))
  }

  /** One queued `setOutput` call: a new text, or an updater appending to the previous one. */
  datatype OutputUpdate = Replace(text: string) | Append(suffix: string)

  const StartMarker := "\U{1F680} Running code...\n"
  const SuccessMarker := "\U{2705} Code executed successfully!\n"
  const ErrorPrefix := "\U{274C} Error: "
  const Placeholder := "Output will appear here...\n\nClick \"Run\" to execute your code!"

  const InitialCode :=
    "// Welcome to the SOLID Principles Playground!\n"
    + "// Try implementing any of the SOLID principles here.\n"
    + "\n"
    + "class Example {\n"
    + "  constructor(private name: string) {}\n"
    + "  \n"
    + "  greet(): string {\n"
    + "    return `Hello, ${this.name}!`;\n"
    + "  }\n"
    + "}\n"
    + "\n"
    + "const example = new Example(\"SOLID\");\n"
    + "console.log(example.greet());\n"

  const SrpTemplate :=
    "// Single Responsibility Principle\n"
    + "class User {\n"
    + "  constructor(public name: string, public email: string) {}\n"
    + "}\n"
    + "\n"
    + "// Try separating these responsibilities\n"
    + "class UserService {\n"
    + "  validateEmail(email: string): boolean {\n"
    + "    // Validation logic\n"
    + "    return email.includes('@');\n"
    + "  }\n"
    + "  \n"
    + "  saveUser(user: User): void {\n"
    + "    // Database logic\n"
    + "    console.log('Saving user:', user);\n"
    + "  }\n"
    + "  \n"
    + "  sendWelcomeEmail(user: User): void {\n"
    + "    // Email logic\n"
    + "    console.log('Sending email to:', user.email);\n"
    + "  }\n"
    + "}"

  const OcpTemplate :=
    "// Open/Closed Principle\n"
    + "// Implement a shape calculator that's open for extension\n"
    + "\n"
    + "interface Shape {\n"
    + "  calculateArea(): number;\n"
    + "}\n"
    + "\n"
    + "class Rectangle implements Shape {\n"
    + "  constructor(private width: number, private height: number) {}\n"
    + "  \n"
    + "  calculateArea(): number {\n"
    + "    return this.width * this.height;\n"
    + "  }\n"
    + "}\n"
    + "\n"
    + "// Add more shapes without modifying existing code!"

  /** The canned snippets, keyed by the selector's values; only two exist. */
  const Templates: map<string, string> := map["srp" := SrpTemplate, "ocp" := OcpTemplate]

  /** The selector's option values. */
  const SelectorKeys: seq<string> := ["srp", "ocp", "lsp", "isp", "dip"]

  const InitialSession := Session(InitialCode, "", "srp")

  /** The text a successful run appends after the success marker: `result || ''`. */
  function ResultText(result: Value): string {
    ToStr(Or(result, Str("")))
  }

  /** The effect of one queued update on the previous output. */
  function Step(prev: string, u: OutputUpdate): string {
    match u
    case Replace(t) => t
    case Append(suffix) => prev + suffix
  }

  /** Queued output updates settle in call order. */
  function ApplyUpdates(prev: string, updates: seq<OutputUpdate>): string
    decreases |updates|
  {
    if updates == [] then prev else ApplyUpdates(Step(prev, updates[0]), updates[1..])
  }

  lemma ApplyOneUpdate(prev: string, a: OutputUpdate)
    ensures ApplyUpdates(prev, [a]) == Step(prev, a)
  {
    assert [a][0] == a && [a][1..] == [];
  }

  lemma ApplyTwoUpdates(prev: string, a: OutputUpdate, b: OutputUpdate)
    ensures ApplyUpdates(prev, [a, b]) == Step(Step(prev, a), b)
  {
    var once := Step(prev, a);
    assert [a, b][0] == a && [a, b][1..] == [b];
    assert ApplyUpdates(prev, [a, b]) == ApplyUpdates(once, [b]);
    assert [b][0] == b && [b][1..] == [];
    assert ApplyUpdates(once, [b]) == ApplyUpdates(Step(once, b), []);
  }

  /** The `setOutput` calls one run makes: the start marker, then either the
      appending updater or, when the evaluation throws, the error text;
      nothing more when the catch block itself throws. */
  function RunUpdates(c: Completion): seq<OutputUpdate> {
    match c
    case Returned(v) => [Replace(StartMarker), Append(SuccessMarker + ResultText(v))]
    case Threw(e) =>
      if Nullish(e) then [Replace(StartMarker)]
      else [Replace(StartMarker), Replace(ErrorPrefix + ErrorText(e))]
  }

  /** `runCode`: evaluates the current buffer with `execute` and settles the
      output. The previous output is discarded; the buffer and the selection
      are untouched. When the handler escapes, the start marker stays. */
  function RunCode(s: Session, execute: string -> Completion): (r: Session)
    ensures r.code == s.code && r.selected == s.selected
    ensures execute(s.code).Returned? ==>
      r.output == StartMarker + SuccessMarker + ResultText(execute(s.code).result)
    ensures execute(s.code).Threw? && !EscapesHandler(execute(s.code)) ==>
      r.output == ErrorPrefix + ErrorText(execute(s.code).thrown)
    ensures EscapesHandler(execute(s.code)) ==> r.output == StartMarker
  {
    var ups := RunUpdates(execute(s.code));
    assert ApplyUpdates(s.output, ups) ==
      if |ups| == 1 then Step(s.output, ups[0]) else Step(Step(s.output, ups[0]), ups[1]) by {
      if |ups| == 1 {
        ApplyOneUpdate(s.output, ups[0]);
      } else {
        ApplyTwoUpdates(s.output, ups[0], ups[1]);
      }
    }
    s.(output := ApplyUpdates(s.output, ups))
  }

  /** A falsy or blank return value adds nothing after the success marker;
      any other value adds its string form, which is then never empty. */
  lemma ResultTextEmptyIffFalsy(result: Value)
    ensures ResultText(result) == "" <==> !Truthy(result) || Blank(result)
    ensures Truthy(result) && !Blank(result) ==> ResultText(result) == ToStr(result) && ToStr(result) != ""
  {
    OrEmptyText(result);
    ToStrEmpty(result);
  }

  /** `return []` is truthy yet adds nothing; `return [1, 2]` adds `1,2`. */
  lemma RunReturningArrays()
    ensures Truthy(Arr([])) && ResultText(Arr([])) == ""
    ensures ResultText(Arr([Num(1), Num(2)])) == "1,2"
  {
    assert [Num(1), Num(2)][1..] == [Num(2)];
    assert IntToDecimal(1) == "1" && IntToDecimal(2) == "2";
  }

  /** The three ways a run ends read differently: a caught error's output
      does not carry the start marker, an escaped handler leaves the start
      marker alone, and a successful run's output goes on past the start
      marker and does not read as an error. */
  lemma RunOutcomesDistinguishable(s: Session, execute: string -> Completion)
    ensures execute(s.code).Threw? && !EscapesHandler(execute(s.code)) ==>
      !(|StartMarker| <= |RunCode(s, execute).output| && RunCode(s, execute).output[..|StartMarker|] == StartMarker)
    ensures EscapesHandler(execute(s.code)) ==> RunCode(s, execute).output == StartMarker
    ensures execute(s.code).Returned? ==>
      |RunCode(s, execute).output| > |StartMarker|
      && RunCode(s, execute).output[..|StartMarker|] == StartMarker
      && !(|ErrorPrefix| <= |RunCode(s, execute).output| && RunCode(s, execute).output[..|ErrorPrefix|] == ErrorPrefix)
  {
    var out := RunCode(s, execute).output;
    if execute(s.code).Returned? {
      assert out[0] == StartMarker[0];
      assert out[..|StartMarker|] == StartMarker;
    } else if !EscapesHandler(execute(s.code)) {
      assert out[0] == ErrorPrefix[0];
    }
  }

  /** No run leaves a trace in the next: a run's output depends only on its
      own evaluation, so the session recovers from any failure. */
  lemma RunForgetsPreviousOutput(s: Session, first: string -> Completion, second: string -> Completion)
    ensures RunCode(RunCode(s, first), second) == RunCode(s, second)
  {
  }

  /** Evaluating `return 2 + 2` completes with 4, shown after the success marker. */
  lemma RunReturningFour(s: Session, execute: string -> Completion)
    requires execute(s.code) == Returned(Num(4))
    ensures RunCode(s, execute).output == StartMarker + SuccessMarker + "4"
  {
  }

  /** `loadTemplate`: the buffer becomes the selected key's snippet, or the
      single-responsibility snippet when the key has none; the output and the
      selection are untouched. */
  function LoadTemplate(s: Session): (r: Session)
    ensures r.output == s.output && r.selected == s.selected
    ensures s.selected in Templates ==> r.code == Templates[s.selected]
    ensures s.selected !in Templates ==> r.code == SrpTemplate
  {
    var t := if s.selected in Templates then Templates[s.selected] else "";
    s.(code := if t != "" then t else Templates["srp"])
  }

  /** Of the five selector keys, `lsp`, `isp` and `dip` all load the
      single-responsibility snippet, and the loaded snippet never depends on
      what the buffer held. */
  lemma UnlistedKeysLoadSrp(s: Session, code: string)
    ensures s.selected in ["lsp", "isp", "dip"] ==> LoadTemplate(s).code == SrpTemplate
    ensures LoadTemplate(s.(code := code)).code == LoadTemplate(s).code
  {
  }

  /** The session starts on `srp` with the welcome buffer and an empty
      output, so the pane shows the placeholder and loading a template
      replaces the welcome buffer with the single-responsibility snippet; of
      the selector's five keys only the first two have their own snippet. */
  lemma InitialSessionAndSelector()
    ensures Displayed(InitialSession.output) == Placeholder
    ensures LoadTemplate(InitialSession).code == SrpTemplate != InitialSession.code
    ensures forall i :: 0 <= i < |SelectorKeys| ==> (SelectorKeys[i] in Templates <==> i < 2)
  {
  }

  /** The clear button: the output becomes empty; the buffer and selection are untouched. */
  function ClearOutput(s: Session): (r: Session)
    ensures r.output == "" && r.code == s.code && r.selected == s.selected
  {
    s.(output := "")
  }

  /** What the output pane shows: the output, or the placeholder when it is empty. */
  function Displayed(output: string): (shown: string)
    ensures shown != ""
    ensures output != "" ==> shown == output
  {
    if output != "" then output else Placeholder
  }

  /** After clearing, the pane shows the placeholder. */
  lemma ClearShowsPlaceholder(s: Session)
    ensures Displayed(ClearOutput(s).output) == Placeholder
  {
  }

  /** The editor's change handler: `setCode(value || '')`. */
  function EditCode(s: Session, value: Option<string>): (r: Session)
    ensures r.output == s.output && r.selected == s.selected
    ensures value.Some? ==> r.code == value.value
    ensures value.None? ==> r.code == ""
  {
    s.(code := value.GetOr(""))
  }

  /** The selector's change handler. */
  function SelectPrinciple(s: Session, key: string): (r: Session)
    ensures r.selected == key && r.code == s.code && r.output == s.output
  {
    s.(selected := key)
  }
}

=== FILE: principle_page.dfy ===
/** The principle page's example loader: three dynamic imports in a row,
    and a static, name-keyed fallback taken when any of them rejects.
    Module resolution is an oracle `resolve` from an import path to what
    the import settles to. */
module PrinciplePage {
  import opened JsValue
  import opened Wrappers

  /** The three artifacts shown for one principle (badCode, goodCode, readmeContent). */
  datatype Bundle = Bundle(bad: Value, good: Value, readme: Value)

  /** The page's state before any load: three empty strings. */
  const InitialBundle := Bundle(Str(""), Str(""), Str(""))

  /** What one `import()` settles to: its module's default export, or a rejection. */
  datatype ImportResult = Resolved(defaultExport: Value) | Rejected

  /** The observable steps of one load: an import (an await, where the page
      may render) or a state-setter call. */
  datatype Event =
    | Import(path: string)
    | SetBad(text: Value)
    | SetGood(text: Value)
    | SetReadme(text: Value)
    | LogFallback

  const BadPlaceholder := "// Bad example code"
  const GoodPlaceholder := "// Good example code"
  const ExampleNotFound := "// Example not found"
  const DocumentationComingSoon := "<p>Documentation coming soon...</p>"
  const SrpKey := "single-responsibility"

  const SrpStaticBad :=
    "// \U{274C} BAD: Multiple responsibilities in one class\n"
    + "class UserProfile {\n"
    + "  constructor() {}\n"
    + "  \n"
    + "  // Responsibility 1: Display\n"
    + "  render() { /* ... */ }\n"
    + "  \n"
    + "  // Responsibility 2: API calls\n"
    + "  fetchUser() { /* ... */ }\n"
    + "  \n"
    + "  // Responsibility 3: Validation\n"
    + "  validateEmail() { /* ... */ }\n"
    + "  \n"
    + "  // Responsibility 4: Storage\n"
    + "  saveToLocalStorage() { /* ... */ }\n"
    + "}"

  const SrpStaticGood :=
    "// \U{2705} GOOD: Single responsibility per class\n"
    + "class UserDisplay {\n"
    + "  render() { /* Only display logic */ }\n"
    + "}\n"
    + "\n"
    + "class UserAPI {\n"
    + "  fetchUser() { /* Only API logic */ }\n"
    + "}\n"
    + "\n"
    + "class UserValidator {\n"
    + "  validateEmail() { /* Only validation logic */ }\n"
    + "}\n"
    + "\n"
    + "class UserStorage {\n"
    + "  save() { /* Only storage logic */ }\n"
    + "}"

  const SrpStaticReadme :=
    "\n"
    + "<h2>Single Responsibility Principle</h2>\n"
    + "<p>A class should have only one reason to change.</p>\n"
    + "<h3>Benefits</h3>\n"
    + "<ul>\n"
    + "  <li>Easier to test</li>\n"
    + "  <li>Easier to maintain</li>\n"
    + "  <li>Easier to understand</li>\n"
    + "</ul>\n"
    + "    "

  /** The static fallback tables; each principle is an independent entry. */
  const StaticBadTable: map<string, string> := map[SrpKey := SrpStaticBad]
  const StaticGoodTable: map<string, string> := map[SrpKey := SrpStaticGood]
  const StaticReadmeTable: map<string, string> := map[SrpKey := SrpStaticReadme]

  /** `table[key] || fallback` on a string-valued table. */
  function LookupOr(table: map<string, string>, key: string, fallback: string): (r: string)
    ensures key in table && table[key] != "" ==> r == table[key]
    ensures key !in table || table[key] == "" ==> r == fallback
  {
    if key in table && table[key] != "" then table[key] else fallback
  }

  /** The static bad example: the table's entry when there is one, the
      placeholder otherwise; never empty. */
  function StaticBadExample(principle: string): (r: string)
    ensures r != ""
    ensures principle in StaticBadTable ==> r == StaticBadTable[principle]
    ensures principle !in StaticBadTable ==> r == ExampleNotFound
  {
    LookupOr(StaticBadTable, principle, ExampleNotFound)
  }

  function StaticGoodExample(principle: string): (r: string)
    ensures r != ""
    ensures principle in StaticGoodTable ==> r == StaticGoodTable[principle]
    ensures principle !in StaticGoodTable ==> r == ExampleNotFound
  {
    LookupOr(StaticGoodTable, principle, ExampleNotFound)
  }

  function StaticReadme(principle: string): (r: string)
    ensures r != ""
    ensures principle in StaticReadmeTable ==> r == StaticReadmeTable[principle]
    ensures principle !in StaticReadmeTable ==> r == DocumentationComingSoon
  {
    LookupOr(StaticReadmeTable, principle, DocumentationComingSoon)
  }

  /** Only the single-responsibility entry is populated; every other name
      gets the placeholders. */
  lemma StaticTablesFallBack(principle: string)
    ensures principle == SrpKey ==>
      StaticBadExample(principle) == SrpStaticBad
      && StaticGoodExample(principle) == SrpStaticGood
      && StaticReadme(principle) == SrpStaticReadme
    ensures principle != SrpKey ==>
      StaticBadExample(principle) == ExampleNotFound
      && StaticGoodExample(principle) == ExampleNotFound
      && StaticReadme(principle) == DocumentationComingSoon
  {
  }

  /** The directory every import of one principle is keyed by: `{id}-{name}`. */
  function ModuleDir(id: int, name: string): string {
    "../principles/" + IntToDecimal(id) + "-" + name
  }

  function BadPath(id: int, name: string): string {
    ModuleDir(id, name) + "/bad-example/index.tsx"
  }

  function GoodPath(id: int, name: string): string {
    ModuleDir(id, name) + "/good-example/index.tsx"
  }

  function ReadmePath(id: int, name: string): string {
    ModuleDir(id, name) + "/README.md?raw"
  }

  /** The three import paths of one principle are pairwise distinct. */
  lemma PathsDistinct(id: int, name: string)
    ensures BadPath(id, name) != GoodPath(id, name)
    ensures BadPath(id, name) != ReadmePath(id, name)
    ensures GoodPath(id, name) != ReadmePath(id, name)
  {
    assert |GoodPath(id, name)| == |BadPath(id, name)| + 1;
    assert |ReadmePath(id, name)| + 8 == |BadPath(id, name)|;
  }

  /** All three imports resolve. */
  predicate AllResolve(id: int, name: string, resolve: string -> ImportResult) {
    && resolve(BadPath(id, name)).Resolved?
    && resolve(GoodPath(id, name)).Resolved?
    && resolve(ReadmePath(id, name)).Resolved?
  }

  /** The bundle built from three resolved imports, each falsy default export
      replaced by its placeholder. */
  function DynamicBundle(id: int, name: string, resolve: string -> ImportResult): Bundle
    requires AllResolve(id, name, resolve)
  {
    Bundle(
      Or(resolve(BadPath(id, name)).defaultExport, Str(BadPlaceholder)),
      Or(resolve(GoodPath(id, name)).defaultExport, Str(GoodPlaceholder)),
      Or(resolve(ReadmePath(id, name)).defaultExport, Str("")))
  }

  /** The bundle the static tables give for a name. */
  function StaticBundle(name: string): Bundle {
    Bundle(Str(StaticBadExample(name)), Str(StaticGoodExample(name)), Str(StaticReadme(name)))
  }

  /** The catch block: log, then set all three fields from the static tables. */
  function Fallback(name: string): seq<Event> {
    [LogFallback,
     SetBad(Str(StaticBadExample(name))),
     SetGood(Str(StaticGoodExample(name))),
     SetReadme(Str(StaticReadme(name)))]
  }

  /** The effect of one event on the held bundle. */
  function Apply(b: Bundle, e: Event): Bundle {
    match e
    case Import(_) => b
    case SetBad(t) => b.(bad := t)
    case SetGood(t) => b.(good := t)
    case SetReadme(t) => b.(readme := t)
    case LogFallback => b
  }

  /** The bundle once every event has taken effect. */
  function Settle(b: Bundle, events: seq<Event>): Bundle
    decreases |events|
  {
    if events == [] then b else Settle(Apply(b, events[0]), events[1..])
  }

  lemma SettleCons(b: Bundle, e: Event, rest: seq<Event>)
    ensures Settle(b, [e] + rest) == Settle(Apply(b, e), rest)
  {
    assert ([e] + rest)[1..] == rest;
  }

  lemma SettleConcat(b: Bundle, xs: seq<Event>, ys: seq<Event>)
    ensures Settle(b, xs + ys) == Settle(Settle(b, xs), ys)
    decreases |xs|
  {
    if xs == [] {
      assert xs + ys == ys;
    } else {
      assert xs + ys == [xs[0]] + (xs[1..] + ys);
      SettleCons(b, xs[0], xs[1..] + ys);
      SettleConcat(Apply(b, xs[0]), xs[1..], ys);
    }
  }

  /** The fallback alone yields the static bundle, whatever was held before. */
  lemma SettleFallback(b: Bundle, name: string)
    ensures Settle(b, Fallback(name)) == StaticBundle(name)
  {
    var f := Fallback(name);
    SettleCons(b, f[0], f[1..]);
    SettleCons(Apply(b, f[0]), f[1], f[2..]);
    SettleCons(Apply(Apply(b, f[0]), f[1]), f[2], f[3..]);
    SettleCons(Apply(Apply(Apply(b, f[0]), f[1]), f[2]), f[3], f[4..]);
    assert f == [f[0]] + f[1..] && f[1..] == [f[1]] + f[2..];
    assert f[2..] == [f[2]] + f[3..] && f[3..] == [f[3]] + f[4..] && f[4..] == [];
  }

  /** `loadPrincipleCode` as written: each import is awaited and its field set
      before the next import starts; any rejection jumps to the fallback. */
  function LoadPrincipleCode(id: int, name: string, resolve: string -> ImportResult): seq<Event> {
    [Import(BadPath(id, name))] + AfterBadImport(id, name, resolve)
  }

  /** The load once the bad-example import settles. */
  function AfterBadImport(id: int, name: string, resolve: string -> ImportResult): seq<Event> {
    match resolve(BadPath(id, name))
    case Rejected => Fallback(name)
    case Resolved(badDefault) =>
      [SetBad(Or(badDefault, Str(BadPlaceholder))), Import(GoodPath(id, name))] + AfterGoodImport(id, name, resolve)
  }

  /** The load once the good-example import settles. */
  function AfterGoodImport(id: int, name: string, resolve: string -> ImportResult): seq<Event> {
    match resolve(GoodPath(id, name))
    case Rejected => Fallback(name)
    case Resolved(goodDefault) =>
      [SetGood(Or(goodDefault, Str(GoodPlaceholder))), Import(ReadmePath(id, name))] + AfterReadmeImport(id, name, resolve)
  }

  /** The load once the readme import settles. */
  function AfterReadmeImport(id: int, name: string, resolve: string -> ImportResult): seq<Event> {
    match resolve(ReadmePath(id, name))
    case Rejected => Fallback(name)
    case Resolved(readmeDefault) => [SetReadme(Or(readmeDefault, Str("")))]
  }

  /** A load starts by importing the bad example and ends either by setting
      the readme from its import or with the whole fallback. */
  lemma LoadStartsAndEnds(id: int, name: string, resolve: string -> ImportResult)
    ensures var ev := LoadPrincipleCode(id, name, resolve);
      |ev| >= 2 && ev[0] == Import(BadPath(id, name))
    ensures var ev := LoadPrincipleCode(id, name, resolve);
      AllResolve(id, name, resolve) ==>
        ev[|ev| - 1] == SetReadme(Or(resolve(ReadmePath(id, name)).defaultExport, Str("")))
    ensures var ev := LoadPrincipleCode(id, name, resolve);
      !AllResolve(id, name, resolve) ==> |ev| >= 4 && ev[|ev| - 4..] == Fallback(name)
  {
    var ev := LoadPrincipleCode(id, name, resolve);
    var ag, ar := AfterGoodImport(id, name, resolve), AfterReadmeImport(id, name, resolve);
    var prefix: seq<Event>;
    if resolve(BadPath(id, name)).Rejected? {
      prefix := [ev[0]];
    } else if resolve(GoodPath(id, name)).Rejected? {
      prefix := ev[..3];
    } else {
      prefix := ev[..5];
    }
    assert ev == prefix + (if resolve(BadPath(id, name)).Rejected? then Fallback(name)
                           else if resolve(GoodPath(id, name)).Rejected? then ag else ar);
  }

  /** The paths a trace imports, in order. */
  function ImportedPaths(events: seq<Event>): seq<string>
    decreases |events|
  {
    if events == [] then []
    else (if events[0].Import? then [events[0].path] else []) + ImportedPaths(events[1..])
  }

  lemma ImportedPathsConcat(xs: seq<Event>, ys: seq<Event>)
    ensures ImportedPaths(xs + ys) == ImportedPaths(xs) + ImportedPaths(ys)
    decreases |xs|
  {
    if xs == [] {
      assert xs + ys == ys;
    } else {
      assert (xs + ys)[0] == xs[0];
      assert (xs + ys)[1..] == xs[1..] + ys;
      ImportedPathsConcat(xs[1..], ys);
    }
  }

  lemma ImportedPathsCons(e: Event, rest: seq<Event>)
    ensures ImportedPaths([e] + rest) == (if e.Import? then [e.path] else []) + ImportedPaths(rest)
  {
    assert ([e] + rest)[1..] == rest;
  }

  /** A setter call followed by an import contributes that import's path. */
  lemma ImportedPathsSetThenImport(setter: Event, path: string, rest: seq<Event>)
    requires !setter.Import?
    ensures ImportedPaths([setter, Import(path)] + rest) == [path] + ImportedPaths(rest)
  {
    assert [setter, Import(path)] + rest == [setter] + ([Import(path)] + rest);
    ImportedPathsCons(setter, [Import(path)] + rest);
    ImportedPathsCons(Import(path), rest);
  }

  /** A trace with no import imports nothing. */
  lemma {:induction false} ImportedPathsWithoutImports(events: seq<Event>)
    requires forall i :: 0 <= i < |events| ==> !events[i].Import?
    ensures ImportedPaths(events) == []
    decreases |events|
  {
    if events != [] {
      ImportedPathsWithoutImports(events[1..]);
    }
  }

  /** The fallback imports nothing. */
  lemma ImportedPathsOfFallback(name: string)
    ensures ImportedPaths(Fallback(name)) == []
  {
    ImportedPathsWithoutImports(Fallback(name));
  }

  /** After the good-example import, only the readme can still be imported. */
  lemma ImportsAfterGood(id: int, name: string, resolve: string -> ImportResult)
    ensures ImportedPaths(AfterGoodImport(id, name, resolve)) ==
      if resolve(GoodPath(id, name)).Rejected? then [] else [ReadmePath(id, name)]
  {
    ImportedPathsOfFallback(name);
    ImportedPathsWithoutImports(AfterReadmeImport(id, name, resolve));
    if resolve(GoodPath(id, name)).Resolved? {
      ImportedPathsSetThenImport(AfterGoodImport(id, name, resolve)[0], ReadmePath(id, name),
                                 AfterReadmeImport(id, name, resolve));
    }
  }

  /** The imports run in the order bad, good, readme, and stop at the first rejection. */
  lemma LoadImportsInOrder(id: int, name: string, resolve: string -> ImportResult)
    ensures ImportedPaths(LoadPrincipleCode(id, name, resolve)) ==
      if resolve(BadPath(id, name)).Rejected? then [BadPath(id, name)]
      else if resolve(GoodPath(id, name)).Rejected? then [BadPath(id, name), GoodPath(id, name)]
      else [BadPath(id, name), GoodPath(id, name), ReadmePath(id, name)]
  {
    var ab := AfterBadImport(id, name, resolve);
    ImportedPathsOfFallback(name);
    ImportsAfterGood(id, name, resolve);
    if resolve(BadPath(id, name)).Resolved? {
      ImportedPathsSetThenImport(ab[0], GoodPath(id, name), AfterGoodImport(id, name, resolve));
    }
    ImportedPathsCons(Import(BadPath(id, name)), ab);
  }

  /** Whatever was set before a rejection, the fallback sets all three fields. */
  lemma FallbackOverrides(b: Bundle, prefix: seq<Event>, name: string)
    ensures Settle(b, prefix + Fallback(name)) == StaticBundle(name)
  {
    SettleConcat(b, prefix, Fallback(name));
    SettleFallback(Settle(b, prefix), name);
  }

  /** A setter call followed by an import settles as the setter call alone. */
  lemma SettleSetThenImport(b: Bundle, setter: Event, path: string, rest: seq<Event>)
    ensures Settle(b, [setter, Import(path)] + rest) == Settle(Apply(b, setter), rest)
  {
    assert [setter, Import(path)] + rest == [setter] + ([Import(path)] + rest);
    SettleCons(b, setter, [Import(path)] + rest);
    SettleCons(Apply(b, setter), Import(path), rest);
  }

  /** The last stage sets the readme, or takes the fallback. */
  lemma SettleAfterReadme(b: Bundle, id: int, name: string, resolve: string -> ImportResult)
    ensures resolve(ReadmePath(id, name)).Rejected? ==>
      Settle(b, AfterReadmeImport(id, name, resolve)) == StaticBundle(name)
    ensures resolve(ReadmePath(id, name)).Resolved? ==>
      Settle(b, AfterReadmeImport(id, name, resolve))
        == b.(readme := Or(resolve(ReadmePath(id, name)).defaultExport, Str("")))
  {
    SettleFallback(b, name);
    if resolve(ReadmePath(id, name)).Resolved? {
      var ar := AfterReadmeImport(id, name, resolve);
      assert ar == [ar[0]] + [];
      SettleCons(b, ar[0], []);
    }
  }

  /** From the good-example import on, the bundle is keyed by the good and
      readme imports, or is wholly static on a rejection. */
  lemma SettleAfterGood(b: Bundle, id: int, name: string, resolve: string -> ImportResult)
    ensures resolve(GoodPath(id, name)).Rejected? || resolve(ReadmePath(id, name)).Rejected? ==>
      Settle(b, AfterGoodImport(id, name, resolve)) == StaticBundle(name)
    ensures resolve(GoodPath(id, name)).Resolved? && resolve(ReadmePath(id, name)).Resolved? ==>
      Settle(b, AfterGoodImport(id, name, resolve))
        == b.(good := Or(resolve(GoodPath(id, name)).defaultExport, Str(GoodPlaceholder)))
            .(readme := Or(resolve(ReadmePath(id, name)).defaultExport, Str("")))
  {
    SettleFallback(b, name);
    if resolve(GoodPath(id, name)).Resolved? {
      var ag := AfterGoodImport(id, name, resolve);
      SettleSetThenImport(b, ag[0], ReadmePath(id, name), AfterReadmeImport(id, name, resolve));
      SettleAfterReadme(Apply(b, ag[0]), id, name, resolve);
    }
  }

  /** The loaded bundle is either wholly dynamic (all three imports resolve)
      or wholly static (any import rejects), and never depends on the bundle
      held before the load. */
  lemma LoadAllOrNothing(init: Bundle, id: int, name: string, resolve: string -> ImportResult)
    ensures AllResolve(id, name, resolve) ==>
      Settle(init, LoadPrincipleCode(id, name, resolve)) == DynamicBundle(id, name, resolve)
    ensures !AllResolve(id, name, resolve) ==>
      Settle(init, LoadPrincipleCode(id, name, resolve)) == StaticBundle(name)
  {
    var ab := AfterBadImport(id, name, resolve);
    SettleCons(init, Import(BadPath(id, name)), ab);
    SettleFallback(init, name);
    if resolve(BadPath(id, name)).Resolved? {
      SettleSetThenImport(init, ab[0], GoodPath(id, name), AfterGoodImport(id, name, resolve));
      SettleAfterGood(Apply(init, ab[0]), id, name, resolve);
    }
  }

  /** When all three imports resolve, each field holds its module's default
      export if that is truthy and its placeholder otherwise. */
  lemma FalsyExportsBecomePlaceholders(init: Bundle, id: int, name: string, resolve: string -> ImportResult)
    requires AllResolve(id, name, resolve)
    ensures
      var b := Settle(init, LoadPrincipleCode(id, name, resolve));
      var bad, good, readme := resolve(BadPath(id, name)).defaultExport,
                               resolve(GoodPath(id, name)).defaultExport,
                               resolve(ReadmePath(id, name)).defaultExport;
      && b.bad == (if Truthy(bad) then bad else Str(BadPlaceholder))
      && b.good == (if Truthy(good) then good else Str(GoodPlaceholder))
      && b.readme == (if Truthy(readme) then readme else Str(""))
  {
    LoadAllOrNothing(init, id, name, resolve);
  }

  /** On any rejection, the outcome is keyed by the name alone: the id plays no part. */
  lemma FallbackIgnoresId(init1: Bundle, init2: Bundle, id1: int, id2: int, name: string,
                          resolve1: string -> ImportResult, resolve2: string -> ImportResult)
    requires !AllResolve(id1, name, resolve1) && !AllResolve(id2, name, resolve2)
    ensures Settle(init1, LoadPrincipleCode(id1, name, resolve1))
         == Settle(init2, LoadPrincipleCode(id2, name, resolve2))
  {
    LoadAllOrNothing(init1, id1, name, resolve1);
    LoadAllOrNothing(init2, id2, name, resolve2);
  }

  /** The bundles the page displays during a load: one render at every
      pending import (the load is suspended there) and one once it settles.
      Setter calls between two awaits are batched into one render. */
  function Visible(b: Bundle, events: seq<Event>): seq<Bundle>
    decreases |events|
  {
    if events == [] then [b]
    else (if events[0].Import? then [b] else []) + Visible(Apply(b, events[0]), events[1..])
  }

  lemma VisibleCons(b: Bundle, e: Event, rest: seq<Event>)
    ensures Visible(b, [e] + rest) == (if e.Import? then [b] else []) + Visible(Apply(b, e), rest)
  {
    assert ([e] + rest)[1..] == rest;
  }

  /** As written, a render during the good-example import shows the freshly
      imported bad example beside the good example and readme held before. */
  lemma LoadShowsPartialBundle(init: Bundle, id: int, name: string, resolve: string -> ImportResult)
    requires resolve(BadPath(id, name)).Resolved?
    ensures init.(bad := Or(resolve(BadPath(id, name)).defaultExport, Str(BadPlaceholder)))
      in Visible(init, LoadPrincipleCode(id, name, resolve))
  {
    var ev := LoadPrincipleCode(id, name, resolve);
    var b, g := BadPath(id, name), GoodPath(id, name);
    var sb := SetBad(Or(resolve(b).defaultExport, Str(BadPlaceholder)));
    var rest := AfterGoodImport(id, name, resolve);
    assert ev == [Import(b)] + ([sb] + ([Import(g)] + rest));
    VisibleCons(Apply(init, sb), Import(g), rest);
    VisibleCons(init, sb, [Import(g)] + rest);
    VisibleCons(init, Import(b), [sb] + ([Import(g)] + rest));
  }

  /** A concrete mix: moving to open-closed from a page holding other content,
      with only the bad-example import resolving, displays a bundle that is
      neither the previous one nor the one the load settles on. */
  lemma MixedBundleWitness()
    ensures
      var init := Bundle(Str("A-bad"), Str("A-good"), Str("A-readme"));
      var resolve := (p: string) => if p == BadPath(2, "open-closed") then Resolved(Str("X")) else Rejected;
      var ev := LoadPrincipleCode(2, "open-closed", resolve);
      exists v :: v in Visible(init, ev) && v != init && v != Settle(init, ev)
  {
    var init := Bundle(Str("A-bad"), Str("A-good"), Str("A-readme"));
    var resolve := (p: string) => if p == BadPath(2, "open-closed") then Resolved(Str("X")) else Rejected;
    var ev := LoadPrincipleCode(2, "open-closed", resolve);
    PathsDistinct(2, "open-closed");
    LoadShowsPartialBundle(init, 2, "open-closed", resolve);
    LoadAllOrNothing(init, 2, "open-closed", resolve);
    StaticTablesFallBack("open-closed");
    var mixed := Bundle(Str("X"), Str("A-good"), Str("A-readme"));
    assert mixed in Visible(init, ev);
    assert mixed != Settle(init, ev);
  }

  /** The three setter calls of a fully resolved load. */
  function DynamicSets(id: int, name: string, resolve: string -> ImportResult): seq<Event>
    requires AllResolve(id, name, resolve)
  {
    var d := DynamicBundle(id, name, resolve);
    [SetBad(d.bad), SetGood(d.good), SetReadme(d.readme)]
  }

  /** The loader with the bundle set atomically: the imports run in the same
      order and stop at the same rejection, but no field is set until all
      three have settled, so the three setter calls land in one render. */
  function LoadPrincipleCodeAtomically(id: int, name: string, resolve: string -> ImportResult): seq<Event> {
    var b, g, r := BadPath(id, name), GoodPath(id, name), ReadmePath(id, name);
    if resolve(b).Rejected? then [Import(b)] + Fallback(name)
    else if resolve(g).Rejected? then [Import(b), Import(g)] + Fallback(name)
    else if resolve(r).Rejected? then [Import(b), Import(g), Import(r)] + Fallback(name)
    else [Import(b), Import(g), Import(r)] + DynamicSets(id, name, resolve)
  }

  /** The atomic loader splits into its imports and a tail with no import. */
  lemma AtomicShape(id: int, name: string, resolve: string -> ImportResult)
    returns (imports: seq<Event>, tail: seq<Event>)
    ensures LoadPrincipleCodeAtomically(id, name, resolve) == imports + tail
    ensures imports ==
      if resolve(BadPath(id, name)).Rejected? then [Import(BadPath(id, name))]
      else if resolve(GoodPath(id, name)).Rejected? then [Import(BadPath(id, name)), Import(GoodPath(id, name))]
      else [Import(BadPath(id, name)), Import(GoodPath(id, name)), Import(ReadmePath(id, name))]
    ensures forall i :: 0 <= i < |imports| ==> imports[i].Import?
    ensures forall i :: 0 <= i < |tail| ==> !tail[i].Import?
    ensures !AllResolve(id, name, resolve) ==> tail == Fallback(name)
    ensures AllResolve(id, name, resolve) ==> tail == DynamicSets(id, name, resolve)
  {
    var b, g, r := BadPath(id, name), GoodPath(id, name), ReadmePath(id, name);
    if resolve(b).Rejected? {
      imports, tail := [Import(b)], Fallback(name);
    } else if resolve(g).Rejected? {
      imports, tail := [Import(b), Import(g)], Fallback(name);
    } else if resolve(r).Rejected? {
      imports, tail := [Import(b), Import(g), Import(r)], Fallback(name);
    } else {
      imports, tail := [Import(b), Import(g), Import(r)], DynamicSets(id, name, resolve);
    }
  }

  /** A trace with no import renders once, when it settles. */
  lemma {:induction false} VisibleWithoutImports(b: Bundle, tail: seq<Event>)
    requires forall i :: 0 <= i < |tail| ==> !tail[i].Import?
    ensures Visible(b, tail) == [Settle(b, tail)]
    decreases |tail|
  {
    if tail != [] {
      VisibleWithoutImports(Apply(b, tail[0]), tail[1..]);
    }
  }

  /** Imports alone render the bundle unchanged. */
  lemma {:induction false} VisibleAfterImports(b: Bundle, imports: seq<Event>, tail: seq<Event>)
    requires forall i :: 0 <= i < |imports| ==> imports[i].Import?
    ensures forall v :: v in Visible(b, imports + tail) ==> v == b || v in Visible(b, tail)
    decreases |imports|
  {
    if imports == [] {
      assert imports + tail == tail;
    } else {
      assert imports + tail == [imports[0]] + (imports[1..] + tail);
      VisibleCons(b, imports[0], imports[1..] + tail);
      VisibleAfterImports(b, imports[1..], tail);
    }
  }

  /** The atomic loader imports the same paths in the same order as the
      loader as written, stopping at the same rejection. */
  lemma AtomicImportsInOrder(id: int, name: string, resolve: string -> ImportResult)
    ensures ImportedPaths(LoadPrincipleCodeAtomically(id, name, resolve)) ==
      if resolve(BadPath(id, name)).Rejected? then [BadPath(id, name)]
      else if resolve(GoodPath(id, name)).Rejected? then [BadPath(id, name), GoodPath(id, name)]
      else [BadPath(id, name), GoodPath(id, name), ReadmePath(id, name)]
  {
    var b, g, r := BadPath(id, name), GoodPath(id, name), ReadmePath(id, name);
    var ev := LoadPrincipleCodeAtomically(id, name, resolve);
    if resolve(b).Rejected? {
      ImportedPathsOfFallback(name);
      ImportedPathsCons(Import(b), Fallback(name));
    } else if resolve(g).Rejected? {
      var t1 := [Import(g)] + Fallback(name);
      assert ev == [Import(b)] + t1;
      ImportedPathsOfFallback(name);
      ImportedPathsCons(Import(g), Fallback(name));
      ImportedPathsCons(Import(b), t1);
    } else {
      var tail := if resolve(r).Rejected? then Fallback(name) else DynamicSets(id, name, resolve);
      var t2 := [Import(r)] + tail;
      var t1 := [Import(g)] + t2;
      assert ev == [Import(b)] + t1;
      ImportedPathsWithoutImports(tail);
      ImportedPathsCons(Import(r), tail);
      ImportedPathsCons(Import(g), t2);
      ImportedPathsCons(Import(b), t1);
    }
  }

  /** The atomic loader settles on the same bundle as the loader as written,
      after importing the same paths in the same order. */
  lemma AtomicLoadSameOutcome(init: Bundle, id: int, name: string, resolve: string -> ImportResult)
    ensures Settle(init, LoadPrincipleCodeAtomically(id, name, resolve))
         == Settle(init, LoadPrincipleCode(id, name, resolve))
    ensures ImportedPaths(LoadPrincipleCodeAtomically(id, name, resolve))
         == ImportedPaths(LoadPrincipleCode(id, name, resolve))
  {
    AtomicImportsInOrder(id, name, resolve);
    LoadImportsInOrder(id, name, resolve);
    LoadAllOrNothing(init, id, name, resolve);
    var imports, tail := AtomicShape(id, name, resolve);
    SettleConcat(init, imports, tail);
    assert Settle(init, imports) == init by {
      VisibleWithoutImportsSettle(init, imports);
    }
    if AllResolve(id, name, resolve) {
      var d := DynamicBundle(id, name, resolve);
      var t3: seq<Event> := [];
      var t2 := [SetReadme(d.readme)] + t3;
      var t1 := [SetGood(d.good)] + t2;
      assert tail == [SetBad(d.bad)] + t1;
      SettleCons(init.(bad := d.bad).(good := d.good), SetReadme(d.readme), t3);
      SettleCons(init.(bad := d.bad), SetGood(d.good), t2);
      SettleCons(init, SetBad(d.bad), t1);
    } else {
      SettleFallback(init, name);
    }
  }

  /** Imports leave the bundle unchanged. */
  lemma {:induction false} VisibleWithoutImportsSettle(b: Bundle, imports: seq<Event>)
    requires forall i :: 0 <= i < |imports| ==> imports[i].Import?
    ensures Settle(b, imports) == b
    decreases |imports|
  {
    if imports != [] {
      VisibleWithoutImportsSettle(b, imports[1..]);
    }
  }

  /** With the atomic loader every displayed bundle is either the one held
      before the load or the one it settles on: never a mix. */
  lemma AtomicLoadShowsNoMix(init: Bundle, id: int, name: string, resolve: string -> ImportResult)
    ensures var ev := LoadPrincipleCodeAtomically(id, name, resolve);
      forall v :: v in Visible(init, ev) ==> v == init || v == Settle(init, ev)
  {
    var ev := LoadPrincipleCodeAtomically(id, name, resolve);
    var imports, tail := AtomicShape(id, name, resolve);
    VisibleAfterImports(init, imports, tail);
    VisibleWithoutImports(init, tail);
    SettleConcat(init, imports, tail);
    VisibleWithoutImportsSettle(init, imports);
  }

  /** The page as the effect sees it: the props of the last load and the held bundle. */
  datatype Page = Page(props: Option<(int, string)>, bundle: Bundle)

  const MountedPage := Page(None, InitialBundle)

  /** A render with props `(id, name)`: the effect runs the loader when
      either prop differs from the previous render's, and the whole bundle
      is replaced; otherwise nothing changes. */
  function Render(p: Page, id: int, name: string, resolve: string -> ImportResult): (r: Page)
    ensures r.props == Some((id, name))
    ensures p.props == Some((id, name)) ==> r.bundle == p.bundle
    ensures p.props != Some((id, name)) && AllResolve(id, name, resolve) ==>
      r.bundle == DynamicBundle(id, name, resolve)
    ensures p.props != Some((id, name)) && !AllResolve(id, name, resolve) ==>
      r.bundle == StaticBundle(name)
  {
    if p.props == Some((id, name)) then p
    else
      LoadAllOrNothing(p.bundle, id, name, resolve);
      Page(Some((id, name)), Settle(p.bundle, LoadPrincipleCode(id, name, resolve)))
  }

  /** The mounted page always loads on its first render, shows the three
      empty strings while the first import is pending, and a second render
      with the same props loads nothing more. */
  lemma FirstRenderLoads(id: int, name: string, resolve: string -> ImportResult)
    ensures Visible(MountedPage.bundle, LoadPrincipleCode(id, name, resolve))[0] == InitialBundle
    ensures ToStr(InitialBundle.bad) == "" && ToStr(InitialBundle.good) == "" && ToStr(InitialBundle.readme) == ""
    ensures Render(MountedPage, id, name, resolve).bundle ==
      Settle(InitialBundle, LoadPrincipleCode(id, name, resolve))
    ensures var p := Render(MountedPage, id, name, resolve);
      Render(p, id, name, resolve) == p
  {
    var ev := LoadPrincipleCode(id, name, resolve);
    LoadStartsAndEnds(id, name, resolve);
    assert ev == [ev[0]] + ev[1..];
    VisibleCons(InitialBundle, ev[0], ev[1..]);
    LoadAllOrNothing(InitialBundle, id, name, resolve);
  }

  /** The page titles, keyed by principle name. */
  const PrincipleNames: map<string, string> := map[
    "single-responsibility" := "Single Responsibility Principle",
    "open-closed" := "Open/Closed Principle",
    "liskov-substitution" := "Liskov Substitution Principle",
    "interface-segregation" := "Interface Segregation Principle",
    "dependency-inversion" := "Dependency Inversion Principle"]

  /** The router's principle list; entry `i` is served with id `i + 1`. */
  const RoutedPrinciples: seq<string> := [
    "single-responsibility", "open-closed", "liskov-substitution",
    "interface-segregation", "dependency-inversion"]

  /** Every routed principle has a title, and only the first (id 1) has
      static fallback content; the other four fall back to placeholders. */
  lemma RoutedPrinciplesCoverage()
    ensures forall i :: 0 <= i < |RoutedPrinciples| ==> RoutedPrinciples[i] in PrincipleNames
    ensures forall i :: 0 <= i < |RoutedPrinciples| ==>
      (StaticBundle(RoutedPrinciples[i]) == Bundle(Str(ExampleNotFound), Str(ExampleNotFound), Str(DocumentationComingSoon))
       <==> i != 0)
  {
    forall i | 0 <= i < |RoutedPrinciples|
      ensures StaticBundle(RoutedPrinciples[i]) == Bundle(Str(ExampleNotFound), Str(ExampleNotFound), Str(DocumentationComingSoon))
              <==> i != 0
    {
      StaticTablesFallBack(RoutedPrinciples[i]);
      if i == 0 {
        assert SrpStaticBad != ExampleNotFound by {
          assert |SrpStaticBad| != |ExampleNotFound|;
        }
      }
    }
  }
}

=== FILE: shapes.dfy ===
/** The Liskov example. As inherited, `Square` overrides `Rectangle`'s
    setters so that each sets both sides, which breaks the setters' frame
    (each changes only its own side) that `resizeRectangle` relies on. As
    composed, rectangles and squares are independent shapes. Numbers are
    integer-valued here. */
module ShapesInherited {
  import opened JsValue
  import opened Wrappers

  /** Which class the object was constructed from; method calls dispatch on it. */
  datatype Kind = RectangleKind | SquareKind

  datatype Shape = Shape(kind: Kind, width: int, height: int)

  /** `new Rectangle()` / `new Square()`: both sides start at 0. */
  function New(kind: Kind): (r: Shape)
    ensures r.kind == kind && r.width == 0 && r.height == 0
  {
    Shape(kind, 0, 0)
  }

  /** `setWidth`, dispatched on the object's class. */
  function SetWidth(s: Shape, width: int): (r: Shape)
    ensures r.kind == s.kind && r.width == width
    ensures s.kind == RectangleKind ==> r.height == s.height
    ensures s.kind == SquareKind ==> r.height == width
  {
    match s.kind
    case RectangleKind => s.(width := width)
    case SquareKind => s.(width := width, height := width)
  }

  /** `setHeight`, dispatched on the object's class. */
  function SetHeight(s: Shape, height: int): (r: Shape)
    ensures r.kind == s.kind && r.height == height
    ensures s.kind == RectangleKind ==> r.width == s.width
    ensures s.kind == SquareKind ==> r.width == height
  {
    match s.kind
    case RectangleKind => s.(height := height)
    case SquareKind => s.(width := height, height := height)
  }

  function GetArea(s: Shape): int {
    s.width * s.height
  }

  /** `Rectangle`'s promise for its setters: each leaves the other side alone. */
  predicate KeepsRectangleFrame(s: Shape, value: int) {
    SetWidth(s, value).height == s.height && SetHeight(s, value).width == s.width
  }

  /** A rectangle always keeps the frame; a square keeps it only when the
      new value already equals both sides, and after either of its setters
      both sides equal the argument. */
  lemma SquareBreaksRectangleFrame(s: Shape, value: int)
    ensures s.kind == RectangleKind ==> KeepsRectangleFrame(s, value)
    ensures s.kind == SquareKind ==>
      (KeepsRectangleFrame(s, value) <==> s.width == value && s.height == value)
    ensures s.kind == SquareKind ==>
      SetWidth(s, value).width == SetWidth(s, value).height == value
      && SetHeight(s, value).width == SetHeight(s, value).height == value
  {
  }

  const ExpectedArea := 20

  /** `resizeRectangle`: set width 5 and height 4, then throw unless the area is 20. */
  function ResizeRectangle(s: Shape): (r: Result<Shape, string>)
    ensures r.Success? <==> s.kind == RectangleKind
    ensures r.Success? ==> GetArea(r.value) == ExpectedArea && r.value.width == 5 && r.value.height == 4
    ensures r.Failure? ==> r.error == "Expected area 20, but got 16"
  {
    var resized := SetHeight(SetWidth(s, 5), 4);
    var actual := GetArea(resized);
    if actual != ExpectedArea then
      assert IntToDecimal(16) == "16" by {
        assert NatToDecimal(16) == NatToDecimal(1) + [DigitChar(6)];
      }
      Failure("Expected area " + IntToDecimal(ExpectedArea) + ", but got " + IntToDecimal(actual))
    else Success(resized)
  }

  /** The demo's error text after testing a fresh shape of each class. */
  function DemoError(kind: Kind): (error: string)
    ensures kind == RectangleKind ==> error == ""
    ensures kind == SquareKind ==> error == "Expected area 20, but got 16"
  {
    match ResizeRectangle(New(kind))
    case Success(_) => ""
    case Failure(e) => e
  }
}

/** The composed version: rectangles and squares share an interface but
    not an implementation. Circles are not part of this model. */
module ShapesComposed {
  import opened JsValue

  datatype Shape = Rectangle(width: int, height: int) | Square(side: int)

  function Area(s: Shape): int {
    match s
    case Rectangle(w, h) => w * h
    case Square(side) => side * side
  }

  function Perimeter(s: Shape): int {
    match s
    case Rectangle(w, h) => 2 * (w + h)
    case Square(side) => 4 * side
  }

  /** `describe`: `Rectangle: WxH` or `Square: SxS`. */
  function Describe(s: Shape): string {
    match s
    case Rectangle(w, h) => "Rectangle: " + IntToDecimal(w) + "x" + IntToDecimal(h)
    case Square(side) => "Square: " + IntToDecimal(side) + "x" + IntToDecimal(side)
  }

  /** A square of side s answers every query as the s-by-s rectangle does. */
  lemma SquareBehavesAsRectangle(side: int)
    ensures Area(Square(side)) == Area(Rectangle(side, side))
    ensures Perimeter(Square(side)) == Perimeter(Rectangle(side, side))
  {
  }

  /** `setDimensions`: both sides replaced, each independently of the other. */
  function SetDimensions(s: Shape, width: int, height: int): (r: Shape)
    requires s.Rectangle?
    ensures r.Rectangle? && r.width == width && r.height == height
    ensures Area(r) == width * height
  {
    s.(width := width, height := height)
  }

  /** `setSide`. */
  function SetSide(s: Shape, side: int): (r: Shape)
    requires s.Square?
    ensures r.Square? && r.side == side && Area(r) == side * side && Perimeter(r) == 4 * side
  {
    s.(side := side)
  }

  lemma NoLetterX(n: int)
    ensures forall k :: 0 <= k < |IntToDecimal(n)| ==> IntToDecimal(n)[k] != 'x'
  {
    if n < 0 {
      var d := NatToDecimal(-n);
      assert IntToDecimal(n) == "-" + d;
      assert forall k :: 1 <= k < |IntToDecimal(n)| ==> IntToDecimal(n)[k] == d[k - 1];
    }
  }

  /** Two strings joined at their only `x` are recovered from the join. */
  lemma SplitAtX(a: string, b: string, c: string, d: string)
    requires forall k :: 0 <= k < |a| ==> a[k] != 'x'
    requires forall k :: 0 <= k < |c| ==> c[k] != 'x'
    requires a + "x" + b == c + "x" + d
    ensures a == c && b == d
  {
    var s := a + "x" + b;
    assert s[|a|] == 'x';
    assert (c + "x" + d)[|c|] == 'x';
    assert |a| == |c|;
    assert a == s[..|a|];
    assert c == (c + "x" + d)[..|c|];
    assert b == s[|a| + 1..];
    assert d == (c + "x" + d)[|c| + 1..];
  }

  /** A prefix followed by two numbers joined with `x` determines the numbers. */
  lemma JoinedNumbersInjective(p: string, a: int, b: int, c: int, d: int)
    requires p + (IntToDecimal(a) + "x" + IntToDecimal(b)) == p + (IntToDecimal(c) + "x" + IntToDecimal(d))
    ensures a == c && b == d
  {
    var l := IntToDecimal(a) + "x" + IntToDecimal(b);
    var r := IntToDecimal(c) + "x" + IntToDecimal(d);
    assert l == (p + l)[|p|..] && r == (p + r)[|p|..];
    NoLetterX(a);
    NoLetterX(c);
    SplitAtX(IntToDecimal(a), IntToDecimal(b), IntToDecimal(c), IntToDecimal(d));
    IntToDecimalInjective(a, c);
    IntToDecimalInjective(b, d);
  }

  lemma DescribeRectangleInjective(w1: int, h1: int, w2: int, h2: int)
    requires Describe(Rectangle(w1, h1)) == Describe(Rectangle(w2, h2))
    ensures w1 == w2 && h1 == h2
  {
    var p := "Rectangle: ";
    assert Describe(Rectangle(w1, h1)) == p + (IntToDecimal(w1) + "x" + IntToDecimal(h1));
    assert Describe(Rectangle(w2, h2)) == p + (IntToDecimal(w2) + "x" + IntToDecimal(h2));
    JoinedNumbersInjective(p, w1, h1, w2, h2);
  }

  lemma DescribeSquareInjective(a: int, b: int)
    requires Describe(Square(a)) == Describe(Square(b))
    ensures a == b
  {
    var p := "Square: ";
    assert Describe(Square(a)) == p + (IntToDecimal(a) + "x" + IntToDecimal(a));
    assert Describe(Square(b)) == p + (IntToDecimal(b) + "x" + IntToDecimal(b));
    JoinedNumbersInjective(p, a, a, b, b);
  }

  lemma DescribeFirstChar(s: Shape)
    ensures |Describe(s)| > 0 && Describe(s)[0] == if s.Rectangle? then 'R' else 'S'
  {
  }

  /** The description determines the shape: distinct shapes describe differently. */
  lemma DescribeInjective(s: Shape, t: Shape)
    ensures Describe(s) == Describe(t) ==> s == t
  {
    DescribeFirstChar(s);
    DescribeFirstChar(t);
    if Describe(s) == Describe(t) {
      if s.Rectangle? && t.Rectangle? {
        DescribeRectangleInjective(s.width, s.height, t.width, t.height);
      } else if s.Square? && t.Square? {
        DescribeSquareInjective(s.side, t.side);
      }
    }
  }

  /** The sum of the areas, as a specification. */
  function SumAreas(shapes: seq<Shape>): int
    decreases |shapes|
  {
    if shapes == [] then 0 else Area(shapes[0]) + SumAreas(shapes[1..])
  }

  lemma {:induction false} SumAreasAppend(a: seq<Shape>, b: seq<Shape>)
    ensures SumAreas(a + b) == SumAreas(a) + SumAreas(b)
    decreases |a|
  {
    if a == [] {
      assert a + b == b;
    } else {
      assert (a + b)[0] == a[0];
      assert (a + b)[1..] == a[1..] + b;
      SumAreasAppend(a[1..], b);
    }
  }

  /** `calculateTotalArea`: a left fold from 0 adding each area; it is the
      sum of the areas, 0 for no shapes. */
  method CalculateTotalArea(shapes: seq<Shape>) returns (total: int)
    ensures total == SumAreas(shapes)
    ensures shapes == [] ==> total == 0
  {
    total := 0;
    var i := 0;
    while i < |shapes|
      invariant 0 <= i <= |shapes|
      invariant total == SumAreas(shapes[..i])
    {
      SumAreasAppend(shapes[..i], [shapes[i]]);
      assert shapes[..i + 1] == shapes[..i] + [shapes[i]];
      total := total + Area(shapes[i]);
      i := i + 1;
    }
    assert shapes[..i] == shapes;
  }
}

=== FILE: user_profile.dfy ===
/** The single-responsibility "bad" profile component: the e-mail check its
    regular expression performs, and the state changes of loading and
    updating the user. Each `fetch` is an oracle outcome; local storage is
    a map from key to the value stored. */
module UserProfile {
  import opened JsValue
  import opened Wrappers

  /** `\s` in a JavaScript regular expression. */
  predicate IsJsWhitespace(c: char) {
    || '\t' <= c <= '\r'
    || c == ' ' || c == '\U{A0}' || c == '\U{1680}'
    || '\U{2000}' <= c <= '\U{200A}'
    || c == '\U{2028}' || c == '\U{2029}' || c == '\U{202F}' || c == '\U{205F}'
    || c == '\U{3000}' || c == '\U{FEFF}'
  }

  /** The character class `[^\s@]`. */
  predicate InClass(c: char) {
    !IsJsWhitespace(c) && c != '@'
  }

  predicate AllInClass(s: string) {
    forall k :: 0 <= k < |s| ==> InClass(s[k])
  }

  /** `/^[^\s@]+@[^\s@]+\.[^\s@]+$/` as a pattern: three non-empty runs of
      class characters joined by an `@` and then a `.`. */
  ghost predicate MatchesEmailPattern(s: string) {
    exists i, j :: 0 < i && i + 1 < j && j + 1 < |s| && s[i] == '@' && s[j] == '.'
      && AllInClass(s[..i]) && AllInClass(s[i + 1..j]) && AllInClass(s[j + 1..])
  }

  /** The first position of `c` in `s`, if any. */
  function IndexOf(s: string, c: char): (r: Option<nat>)
    ensures r.None? ==> forall k :: 0 <= k < |s| ==> s[k] != c
    ensures r.Some? ==> (r.value < |s| && s[r.value] == c
                         && forall k :: 0 <= k < r.value ==> s[k] != c)
  {
    if s == [] then None
    else if s[0] == c then Some(0)
    else match IndexOf(s[1..], c)
      case None => None
      case Some(k) => Some(k + 1)
  }

  /** A `.` with at least one character on each side. */
  predicate HasInteriorDot(d: string) {
    exists k :: 0 < k < |d| - 1 && d[k] == '.'
  }

  /** `validateEmail`, character by character: split at the first `@`; the
      part before it must be non-empty, and both parts free of whitespace and
      further `@`s, with an interior `.` after the `@`. */
  function ValidateEmail(email: string): (r: bool)
    ensures r ==> |email| >= 5 && '@' in email
    ensures '@' !in email ==> !r
  {
    match IndexOf(email, '@')
    case None => false
    case Some(at) =>
      at > 0 && AllInClass(email[..at]) && AllInClass(email[at + 1..]) && HasInteriorDot(email[at + 1..])
  }

  lemma AllInClassSlice(s: string, a: int, b: int)
    requires 0 <= a <= b <= |s| && AllInClass(s)
    ensures AllInClass(s[a..b])
  {
    assert forall k :: 0 <= k < b - a ==> s[a..b][k] == s[a + k];
  }

  lemma ValidEmailMatchesPattern(s: string)
    requires ValidateEmail(s)
    ensures MatchesEmailPattern(s)
  {
    var at := IndexOf(s, '@').value;
    var d := s[at + 1..];
    var k :| 0 < k < |d| - 1 && d[k] == '.';
    var j := at + 1 + k;
    assert s[at + 1..j] == d[..k];
    assert s[j + 1..] == d[k + 1..];
    AllInClassSlice(d, 0, k);
    AllInClassSlice(d, k + 1, |d|);
    assert s[j] == '.';
  }

  lemma PatternMatchIsValidEmail(s: string, i: int, j: int)
    requires 0 < i && i + 1 < j && j + 1 < |s| && s[i] == '@' && s[j] == '.'
    requires AllInClass(s[..i]) && AllInClass(s[i + 1..j]) && AllInClass(s[j + 1..])
    ensures ValidateEmail(s)
  {
    assert forall k :: 0 <= k < i ==> s[k] == s[..i][k];
    assert IndexOf(s, '@') == Some(i);
    var d := s[i + 1..];
    forall k | 0 <= k < |d|
      ensures InClass(d[k])
    {
      if i + 1 + k < j {
        assert d[k] == s[i + 1..j][k];
      } else if i + 1 + k > j {
        assert d[k] == s[j + 1..][k - (j - i)];
      }
    }
    assert d[j - i - 1] == '.';
  }

  /** The character-level check accepts exactly the strings the regular expression matches. */
  lemma ValidateEmailMatchesPattern(s: string)
    ensures ValidateEmail(s) <==> MatchesEmailPattern(s)
  {
    if ValidateEmail(s) {
      ValidEmailMatchesPattern(s);
    }
    if MatchesEmailPattern(s) {
      var i, j :| 0 < i && i + 1 < j && j + 1 < |s| && s[i] == '@' && s[j] == '.'
        && AllInClass(s[..i]) && AllInClass(s[i + 1..j]) && AllInClass(s[j + 1..]);
      PatternMatchIsValidEmail(s, i, j);
    }
  }

  /** The four conditions an address must meet, stated apart from the pattern:
      exactly one `@`, no whitespace, something before the `@`, and after it
      a `.` with a character on each side. */
  ghost predicate EmailConditions(s: string) {
    exists i :: 0 < i < |s| && s[i] == '@'
      && (forall k :: 0 <= k < |s| && s[k] == '@' ==> k == i)
      && (forall k :: 0 <= k < |s| ==> !IsJsWhitespace(s[k]))
      && HasInteriorDot(s[i + 1..])
  }

  /** An address is accepted exactly when it meets the four conditions. */
  lemma ValidateEmailConditions(s: string)
    ensures ValidateEmail(s) <==> EmailConditions(s)
  {
    if ValidateEmail(s) {
      var at := IndexOf(s, '@').value;
      forall k | 0 <= k < |s|
        ensures !IsJsWhitespace(s[k]) && (s[k] == '@' ==> k == at)
      {
        if k < at {
          assert s[k] == s[..at][k];
        } else if k > at {
          assert s[k] == s[at + 1..][k - at - 1];
        }
      }
    }
    if EmailConditions(s) {
      var i :| 0 < i < |s| && s[i] == '@'
        && (forall k :: 0 <= k < |s| && s[k] == '@' ==> k == i)
        && (forall k :: 0 <= k < |s| ==> !IsJsWhitespace(s[k]))
        && HasInteriorDot(s[i + 1..]);
      assert IndexOf(s, '@') == Some(i);
      assert forall k :: 0 <= k < i ==> s[..i][k] == s[k];
    }
  }

  /** A request the component sends. */
  datatype Request = GetUser | PutUser(body: Value)

  /** What a `fetch` plus `response.json()` settles to. */
  datatype FetchOutcome = Responded(data: Value) | FetchFailed

  /** The component's state, with the value it last wrote to local storage under `user`. */
  datatype ProfileState = ProfileState(user: Value, errors: seq<string>, isLoading: bool, stored: Option<Value>)

  const InitialProfile := ProfileState(Null, [], false, None)

  const FailedToLoad := "Failed to load user"
  const InvalidEmailFormat := "Invalid email format"
  const FailedToUpdate := "Failed to update user"

  /** The state rendered while `loadUser` awaits its response. */
  function LoadUserPending(s: ProfileState): (r: ProfileState)
    ensures r.isLoading && r.user == s.user && r.errors == s.errors && r.stored == s.stored
  {
    s.(isLoading := true)
  }

  /** `loadUser` once its request settles: the response becomes the user and
      is stored; a failure records the load error. Either way loading ends. */
  function LoadUser(s: ProfileState, outcome: FetchOutcome): (r: ProfileState)
    ensures !r.isLoading
    ensures outcome.Responded? ==>
      r.user == outcome.data && r.stored == Some(outcome.data) && r.errors == s.errors
    ensures outcome.FetchFailed? ==>
      r.errors == [FailedToLoad] && r.user == s.user && r.stored == s.stored
  {
    var pending := LoadUserPending(s);
    var settled := match outcome
      case Responded(data) => pending.(user := data, stored := Some(data))
      case FetchFailed => pending.(errors := [FailedToLoad]);
    settled.(isLoading := false)
  }

  /** The state after an update together with the requests it sent, and
      whether the call ended by throwing (its promise rejects). */
  datatype UpdateResult = UpdateResult(state: ProfileState, requests: seq<Request>, threw: bool)

  /** `updateUser`: the e-mail property of the updates is checked first and
      an invalid address stops the update before any request; otherwise one
      PUT carries the updates and its response becomes the stored user.
      Reading `email` of `null` or `undefined` updates throws a `TypeError`
      before anything is set or sent. */
  function UpdateUser(s: ProfileState, updates: Value, outcome: FetchOutcome): (r: UpdateResult)
    ensures r.threw <==> Nullish(updates)
    ensures r.threw ==> r.requests == [] && r.state == s
    ensures !r.threw && !ValidateEmail(ToStr(Field(updates, "email"))) ==>
      r.requests == [] && r.state == s.(errors := [InvalidEmailFormat])
    ensures ValidateEmail(ToStr(Field(updates, "email"))) ==>
      !r.threw && r.requests == [PutUser(updates)] && r.state.isLoading == s.isLoading
    ensures ValidateEmail(ToStr(Field(updates, "email"))) && outcome.Responded? ==>
      r.state == s.(user := outcome.data, stored := Some(outcome.data))
    ensures ValidateEmail(ToStr(Field(updates, "email"))) && outcome.FetchFailed? ==>
      r.state == s.(errors := [FailedToUpdate])
  {
    if Nullish(updates) then
      UpdateResult(s, [], true)
    else if !ValidateEmail(ToStr(Field(updates, "email"))) then
      UpdateResult(s.(errors := [InvalidEmailFormat]), [], false)
    else
      match outcome
      case Responded(data) => UpdateResult(s.(user := data, stored := Some(data)), [PutUser(updates)], false)
      case FetchFailed => UpdateResult(s.(errors := [FailedToUpdate]), [PutUser(updates)], false)
  }

  /** An invalid address short-circuits: the server's behaviour is irrelevant,
      and an update without an `email` property (read as the string
      "undefined") is always refused. */
  lemma InvalidEmailShortCircuits(s: ProfileState, updates: Value, o1: FetchOutcome, o2: FetchOutcome)
    ensures !ValidateEmail(ToStr(Field(updates, "email"))) ==> UpdateUser(s, updates, o1) == UpdateUser(s, updates, o2)
    ensures Field(updates, "email") == Undefined ==> UpdateUser(s, updates, o1).requests == []
  {
  }

  /** The update button sends the current user with the name replaced, so it
      is accepted exactly when the current user's e-mail is. */
  function UpdateButton(s: ProfileState, outcome: FetchOutcome): (r: UpdateResult)
    ensures !r.threw
    ensures ValidateEmail(ToStr(Field(s.user, "email"))) <==> r.requests != []
    ensures r.requests != [] ==> (r.requests[0].PutUser?
                                  && Field(r.requests[0].body, "name") == Str("New Name")
                                  && Field(r.requests[0].body, "email") == Field(s.user, "email"))
  {
    UpdateUser(s, WithField(s.user, "name", Str("New Name")), outcome)
  }

  /** Local storage holds the user shown. */
  predicate StoredMatchesUser(s: ProfileState) {
    s.stored == Some(s.user)
  }

  /** On mount this component has stored nothing yet (the browser may still
      hold an earlier session's value); the first load either stores and shows the
      response or records only the load error with no user. */
  lemma MountLoad(outcome: FetchOutcome)
    ensures !StoredMatchesUser(InitialProfile)
    ensures outcome.Responded? ==> LoadUser(InitialProfile, outcome) == ProfileState(outcome.data, [], false, Some(outcome.data))
    ensures outcome.FetchFailed? ==> LoadUser(InitialProfile, outcome) == ProfileState(Null, [FailedToLoad], false, None)
  {
  }

  /** A successful load puts storage in step with the user and every update,
      whatever its outcome, keeps it so; a load and a valid update answered
      with the same record leave the same user stored. Loading again with
      the same response changes nothing. */
  lemma StorageFollowsUser(s: ProfileState, updates: Value, outcome: FetchOutcome, data: Value)
    ensures StoredMatchesUser(LoadUser(s, Responded(data)))
    ensures StoredMatchesUser(s) ==> StoredMatchesUser(LoadUser(s, outcome))
    ensures StoredMatchesUser(s) ==> StoredMatchesUser(UpdateUser(s, updates, outcome).state)
    ensures ValidateEmail(ToStr(Field(updates, "email"))) ==>
      var loaded, updated := LoadUser(s, Responded(data)), UpdateUser(s, updates, Responded(data)).state;
      loaded.user == updated.user && loaded.stored == updated.stored
    ensures LoadUser(LoadUser(s, outcome), outcome) == LoadUser(s, outcome)
  {
  }
}

=== FILE: workers.dfy ===
/** The interface-segregation example. With one fat interface, each worker
    class throws from the methods it cannot support, and the demo stops at
    the first throw. With segregated interfaces, each class has only the
    capabilities it supports, and every call is total. */
module WorkersFat {
  import opened Wrappers

  /** The six methods of the fat `Worker` interface. */
  datatype Operation = Work | Eat | Sleep | TakeBreak | ChargeBattery | PerformMaintenance

  datatype FatWorker = HumanWorker | RobotWorker

  /** Calling one method: it returns, or throws with the given message. */
  function Invoke(w: FatWorker, op: Operation): (r: Result<Operation, string>)
    ensures r.Success? ==> r.value == op
    ensures r.Failure? ==> |r.error| > 6 && r.error[..6] == (if w == HumanWorker then "Humans" else "Robots")
  {
    match (w, op)
    case (HumanWorker, ChargeBattery) => Failure("Humans don't have batteries!")
    case (HumanWorker, PerformMaintenance) => Failure("Humans don't need maintenance!")
    case (RobotWorker, Eat) => Failure("Robots don't eat!")
    case (RobotWorker, Sleep) => Failure("Robots don't sleep!")
    case (RobotWorker, TakeBreak) => Failure("Robots don't take breaks!")
    case _ => Success(op)
  }

  /** Which methods of each class return normally. */
  lemma InvokeSucceedsExactly(w: FatWorker, op: Operation)
    ensures w == HumanWorker ==>
      (Invoke(w, op).Success? <==> op in {Work, Eat, Sleep, TakeBreak})
    ensures w == RobotWorker ==>
      (Invoke(w, op).Success? <==> op in {Work, ChargeBattery, PerformMaintenance})
  {
  }

  /** A `try` block of calls: the methods that returned, and the messages caught. */
  datatype Attempt = Attempt(performed: seq<Operation>, errors: seq<string>)

  /** Calls the methods in order inside one `try`: the first throw abandons the
      rest and its message is the only error caught. */
  function RunUntilThrow(w: FatWorker, ops: seq<Operation>): (r: Attempt)
    ensures |r.performed| <= |ops| && r.performed == ops[..|r.performed|]
    ensures forall i :: 0 <= i < |r.performed| ==> Invoke(w, ops[i]).Success?
    ensures r.errors == [] <==> |r.performed| == |ops|
    ensures r.errors != [] ==>
      Invoke(w, ops[|r.performed|]).Failure? && r.errors == [Invoke(w, ops[|r.performed|]).error]
    decreases |ops|
  {
    if ops == [] then Attempt([], [])
    else match Invoke(w, ops[0])
      case Failure(message) => Attempt([], [message])
      case Success(_) =>
        var rest := RunUntilThrow(w, ops[1..]);
        Attempt([ops[0]] + rest.performed, rest.errors)
  }

  /** The demo's test buttons: the new error list replaces the old one, so
      it holds at most one message, and none exactly when every call returns. */
  function TestWorker(previousErrors: seq<string>, w: FatWorker, ops: seq<Operation>): (errors: seq<string>)
    ensures |errors| <= 1
    ensures errors == [] <==> forall i :: 0 <= i < |ops| ==> Invoke(w, ops[i]).Success?
  {
    RunUntilThrow(w, ops).errors
  }

  const HumanTest: seq<Operation> := [Work, Eat, ChargeBattery]
  const RobotTest: seq<Operation> := [Work, ChargeBattery, Eat]

  /** `testHumanWorker` works and eats, then throws at the battery;
      `testRobotWorker` works and charges, then throws at eating. */
  lemma DemoTestsStopAtFirstThrow(previousErrors: seq<string>)
    ensures RunUntilThrow(HumanWorker, HumanTest).performed == [Work, Eat]
    ensures TestWorker(previousErrors, HumanWorker, HumanTest) == ["Humans don't have batteries!"]
    ensures RunUntilThrow(RobotWorker, RobotTest).performed == [Work, ChargeBattery]
    ensures TestWorker(previousErrors, RobotWorker, RobotTest) == ["Robots don't eat!"]
  {
    assert HumanTest[1..][1..][1..] == [];
    assert RobotTest[1..][1..][1..] == [];
  }
}

/** The segregated version: capabilities per class. */
module WorkersSegregated {
  import WorkersFat
  import opened Wrappers

  type Operation = WorkersFat.Operation

  datatype Worker = Human | Robot | Cyborg

  /** The interfaces each class implements: everyone works, and no class
      has all six methods. */
  function Capabilities(w: Worker): (c: set<Operation>)
    ensures WorkersFat.Work in c
    ensures WorkersFat.PerformMaintenance !in c || WorkersFat.Eat !in c
  {
    match w
    case Human => {WorkersFat.Work, WorkersFat.Eat, WorkersFat.Sleep, WorkersFat.TakeBreak}
    case Robot => {WorkersFat.Work, WorkersFat.ChargeBattery, WorkersFat.PerformMaintenance}
    case Cyborg => {WorkersFat.Work, WorkersFat.Eat, WorkersFat.ChargeBattery, WorkersFat.TakeBreak}
  }

  /** One method call on one worker. */
  datatype Call = Call(worker: Worker, op: Operation)

  /** The name the source calls each method by. */
  function MethodName(op: Operation): string {
    match op
    case Work => "work"
    case Eat => "eat"
    case Sleep => "sleep"
    case TakeBreak => "takeBreak"
    case ChargeBattery => "chargeBattery"
    case PerformMaintenance => "performMaintenance"
  }

  /** `worker.op()` as the helpers' callbacks call it: a worker that has the
      method returns normally, as no segregated method throws; a worker
      without it (reachable only by bypassing the parameter types) fails
      with a `TypeError`. */
  function Perform(w: Worker, op: Operation): (r: Result<Call, string>)
    ensures r.Success? <==> op in Capabilities(w)
    ensures r.Success? ==> r.value.worker == w && r.value.op == op
    ensures r.Failure? ==> r.error == "worker." + MethodName(op) + " is not a function"
  {
    if op in Capabilities(w) then Success(Call(w, op))
    else Failure("worker." + MethodName(op) + " is not a function")
  }

  /** `workers.forEach(worker => worker.op())`. */
  function ForEach(workers: seq<Worker>, op: Operation): (calls: seq<Call>)
    requires forall i :: 0 <= i < |workers| ==> op in Capabilities(workers[i])
    ensures |calls| == |workers|
    ensures forall i :: 0 <= i < |calls| ==> calls[i] == Call(workers[i], op)
    decreases |workers|
  {
    if workers == [] then []
    else [Perform(workers[0], op).value] + ForEach(workers[1..], op)
  }

  /** `assignWork`: every worker has `work`, so any list is accepted. */
  function AssignWork(workers: seq<Worker>): (calls: seq<Call>)
    ensures |calls| == |workers|
    ensures forall i :: 0 <= i < |calls| ==> calls[i] == Call(workers[i], WorkersFat.Work)
  {
    ForEach(workers, WorkersFat.Work)
  }

  /** `feedWorkers`: only `Eatable` workers. */
  function FeedWorkers(workers: seq<Worker>): (calls: seq<Call>)
    requires forall i :: 0 <= i < |workers| ==> WorkersFat.Eat in Capabilities(workers[i])
    ensures |calls| == |workers|
    ensures forall i :: 0 <= i < |calls| ==> calls[i] == Call(workers[i], WorkersFat.Eat)
  {
    ForEach(workers, WorkersFat.Eat)
  }

  /** `chargeWorkers`: only `Chargeable` workers. */
  function ChargeWorkers(workers: seq<Worker>): (calls: seq<Call>)
    requires forall i :: 0 <= i < |workers| ==> WorkersFat.ChargeBattery in Capabilities(workers[i])
    ensures |calls| == |workers|
    ensures forall i :: 0 <= i < |calls| ==> calls[i] == Call(workers[i], WorkersFat.ChargeBattery)
  {
    ForEach(workers, WorkersFat.ChargeBattery)
  }

  const SuccessLine := "\n\U{2705} No errors! Each worker only implements what they need."

  /** The demo's output lines together with the calls it makes. */
  datatype Demo = Demo(messages: seq<string>, calls: seq<Call>)

  /** `demonstrateISP`: work for all three, food for the human and the
      cyborg, charge for the robot and the cyborg; four messages, the last
      being the success line, and every call within the worker's capabilities. */
  function DemonstrateIsp(): (d: Demo)
    ensures |d.messages| == 4 && d.messages[3] == SuccessLine
    ensures forall i :: 0 <= i < |d.calls| ==> d.calls[i].op in Capabilities(d.calls[i].worker)
    ensures |d.calls| == 7
  {
    var messages := [
      "=== Assigning work to all ===",
      "\n=== Feeding organic workers ===",
      "\n=== Charging electronic workers ===",
      SuccessLine];
    Demo(messages,
         AssignWork([Human, Robot, Cyborg]) + FeedWorkers([Human, Cyborg]) + ChargeWorkers([Robot, Cyborg]))
  }

  /** The fat classes throw from exactly the methods their segregated
      counterparts do not have, so a segregated call that type-checks never
      fails where the fat one returns, and vice versa. */
  lemma FatThrowsOutsideCapabilities(op: Operation)
    ensures WorkersFat.Invoke(WorkersFat.HumanWorker, op).Success? <==> op in Capabilities(Human)
    ensures WorkersFat.Invoke(WorkersFat.RobotWorker, op).Success? <==> op in Capabilities(Robot)
    ensures WorkersFat.Invoke(WorkersFat.HumanWorker, op).Success? <==> Perform(Human, op).Success?
    ensures WorkersFat.Invoke(WorkersFat.RobotWorker, op).Success? <==> Perform(Robot, op).Success?
  {
    WorkersFat.InvokeSucceedsExactly(WorkersFat.HumanWorker, op);
    WorkersFat.InvokeSucceedsExactly(WorkersFat.RobotWorker, op);
  }
}

=== FILE: wrappers.dfy ===
/** Option and Result values used across the model: `undefined` lookups and
    thrown errors become `None` and `Failure` instead of partial functions. */
module Wrappers {

  /** A value that may be absent (JavaScript `undefined`). */
  datatype Option<+T> = None | Some(value: T) {

    /** The carried value, or `default` when absent. */
    function GetOr(default: T): T {
      match this
      case Some(v) => v
      case None => default
    }
  }

  /** The outcome of a call that may throw: a value, or the thrown error. */
  datatype Result<+T, +E> = Success(value: T) | Failure(error: E)
}
